=== FILE: README.md ===
# Portfolio site scripts — a Dafny model

This project models the client-side logic of a static portfolio site and
proves properties of it. The logic comes from three scripts:

- **`js/i18n.js`**, the translation binder. It loads a two-language
  dictionary and picks the active language from storage, falling back to
  Portuguese. It rewrites every element carrying a `data-i18n` key, then
  runs a fixed table of selector → dictionary-entry statements. It sets the
  root `lang`, points the résumé link at the right file, and keeps the
  language toggle advertising the *other* language.
- **`js/content-loader.js`**, the content binder. It fills the credentials
  list, the testimonial card, the contact heading and the education block
  from a fetched content document. The education block includes a rounded
  progress percentage.
- **`js/main.js`**, the page's small UI state machines:
  - the colour theme;
  - the mobile menu;
  - required-field validation of the contact form;
  - the case-study modal with its screenshot lightbox.

The DOM is abstract. In module `Dom`, a `Page` maps element ids to
elements (children plus attributes). It maps each selector used by the
scripts to its matches in document order, and it holds the root `lang`.
Selector matching is therefore data, not code. JSON values are modelled by
`JsValue.Json`, which carries JavaScript truthiness and the `String()`
conversion the scripts rely on when they write a value into the page.
Strings are sequences of characters. `JsString.Trim` is JavaScript's
`String.prototype.trim`, including its set of white-space characters.

Modules and files:

| file | module | models |
|---|---|---|
| `wrappers.dfy` | `Wrappers` | `Option` |
| `js_value.dfy` | `JsValue` | JSON values, truthiness, `String()` |
| `js_string.dfy` | `JsString` | `trim` and blankness |
| `key_path.dfy` | `KeyPath` | `resolveKey`: `split('.')` and the `acc && acc[part]` fold |
| `dom.dfy` | `Dom` | abstract elements, pages, `querySelector(All)`, `textContent`/`innerHTML`/`setAttribute` |
| `i18n_table.dfy` | `I18nTable` | the fixed-selector statements of `updateLanguage`, as data |
| `i18n.dfy` | `I18n` | `translateElements`, the `data-i18n` pass, `updatePlaceholder`, `updateCVLink`, `updateLanguage`, `init`, the toggle |
| `content_loader.dfy` | `ContentLoader` | `loadContent` and the four `populate*` functions |
| `theme.dfy` | `Theme` | `setTheme`, `initTheme`, the theme toggle, the system-scheme listener |
| `mobile_menu.dfy` | `MobileMenu` | `toggleMobileMenu`, `closeMobileMenu` |
| `contact_form.dfy` | `ContactForm` | submit-time validation and the typing listener |
| `case_study_modal.dfy` | `CaseStudyModal` | `openModal`, `closeModal`, the lightbox, the Escape key |

### Where the code does less than one would expect

The model follows the code in each case below.

- **The language round trip is partial.** One would expect that switching
  language and back restores every element carrying a `data-i18n` key. The
  `data-i18n` pass only writes when the resolved value is truthy. An
  element whose key only the *other* language defines therefore keeps the
  other language's text after switching back.
  - `I18n.UpdateLanguageRoundTrip` proves the round trip through
    `updateLanguage` itself, for every element whose key has a truthy value
    in the language switched back to. The element must be one that no
    fixed-table statement, résumé link or progress label selects.
  - `I18n.DeclRoundTripNeedsBothValues` exhibits an element for which the
    unrestricted round trip fails.
- **An empty stored language is ignored.** The stored language is read
  with `||`, so an empty stored string also falls back to `pt`, not only a
  missing entry (`I18n.InitialLang`).
- **The icon branch keeps no icon.** The `data-i18n` pass has a branch meant
  for elements that hold an icon. That branch writes `textContent` just like
  the other branch, so the icon is removed either way (`I18n.DeclRewrite`).

## Model

| member | source | states |
|---|---|---|
| JsString.Trim | js/main.js:322 | the result is a contiguous piece of the value, everything dropped before and after it is white space, and it neither starts nor ends with white space |
| JsString.TrimEmptyIffBlank | js/main.js:322 | a value trims to the empty string exactly when every character of it is JavaScript white space |
| KeyPath.SplitDots | js/i18n.js:315 | `split('.')` gives at least one piece and no piece holds a dot; with `JoinSplit` this determines the split uniquely |
| KeyPath.SplitJoin | js/i18n.js:314-316 | splitting a dot-joined key recovers its dot-free parts |
| KeyPath.JoinSplit | js/i18n.js:314-316 | joining a key's `split('.')` pieces with dots gives the key back |
| KeyPath.SplitAround | js/i18n.js:315 | the pieces of `a.b` are the pieces of `a` followed by those of `b` |
| KeyPath.Member | js/i18n.js:315 | one fold step `acc && acc[part]`: a falsy accumulator is kept, a missing member is `undefined`, a present one is its value |
| KeyPath.ResolveKey | js/i18n.js:314-316 | a falsy root comes back as it is; a key without a dot is one member lookup, `undefined` when the object lacks it |
| KeyPath.ResolveConcat | js/i18n.js:315 | resolving a path in two stages equals resolving it at once |
| KeyPath.ResolveKeyConcat | js/i18n.js:314-316 | resolving `a.b` is resolving `b` inside what `a` resolves to |
| KeyPath.FalsyAbsorbs | js/i18n.js:315 | once the accumulator is falsy the rest of the path returns it unchanged |
| KeyPath.MissingSegment | js/i18n.js:314-316 | a path with a missing segment resolves to `undefined`, which is falsy, so nothing is written |
| I18nTable.Block | js/i18n.js:116-218 | a section's statements read their values only from that section, in the order written |
| I18nTable.TableReadsSections | js/i18n.js:116-218 | the whole fixed-selector table dereferences only the ten sections nav … footer |
| Dom.QueryFirst | js/i18n.js:236 | the first match when it is an element of the page; on a well-formed page, some element exactly when the selector matches anything |
| Dom.FirstSvg | js/i18n.js:282 | the first `svg` child in order, or none exactly when no child is an `svg` |
| I18n.Rewrite | js/i18n.js:279-296 | per element: keepIcon with an svg gives text plus a space then the svg, and otherwise plain text; `data-words` changes only that attribute; asHTML gives markup; plain gives text only |
| I18n.TranslateElements | js/i18n.js:275-297 | nothing changes unless the text or the word list is truthy; every match is rewritten and no other element changes |
| I18n.RewriteIdempotent | js/i18n.js:279-296 | rewriting an element twice with the same arguments equals rewriting it once |
| I18n.TranslateIdempotent | js/i18n.js:275-297 | `translateElements` applied twice equals applied once |
| I18n.ModePrecedence | js/i18n.js:280-295 | keepIcon overrides the other options, `data-words` overrides asHTML, and keepIcon without an svg is plain text |
| I18n.PlainKeepsAttrs | js/i18n.js:294 | a plain-text translation never changes any element's attributes |
| I18n.DeclRewrite | js/i18n.js:87-112 | a key with a falsy value leaves the element alone; a truthy one sets `placeholder` when present and otherwise replaces all children, icons included, by its text |
| I18n.DeclPass | js/i18n.js:87-112 | the pass visits every element once; in the model no element id is added or removed, and the query and language are kept |
| I18n.DeclKeepsKeys | js/i18n.js:87-112 | the pass never changes an element's `data-i18n` key or whether it has a `placeholder` |
| I18n.DeclOverrides | js/i18n.js:87-112 | whatever an earlier pass wrote, a pass whose value for the key is truthy leaves the element as if the earlier pass never ran |
| I18n.DeclPassIdempotent | js/i18n.js:87-112 | the pass run twice with one dictionary equals the pass run once |
| I18n.DeclRoundTrip | js/i18n.js:87-112 | for one element: `a`, then `b`, then `a` again equals `a` alone when the key is truthy in `a` |
| I18n.DeclPassRoundTrip | js/i18n.js:87-112 | switching to another language and back restores every element whose key has a truthy value in the first language |
| I18n.DeclRoundTripNeedsBothValues | js/i18n.js:89-90 | an element whose key only the other language defines keeps that language's text after switching back |
| I18n.UpdatePlaceholder | js/i18n.js:234-238 | a truthy text goes into the first match's `placeholder`; its children and other attributes and every other element stay; a falsy text or no match changes nothing |
| I18n.PlaceholderLastWriterWins | js/i18n.js:234-238 | a later truthy placeholder replaces whatever an earlier call wrote |
| I18n.ApplyStep | js/i18n.js:116-218 | one table statement changes only elements its selector matches |
| I18n.RunSteps | js/i18n.js:116-218 | the table run in order changes only elements some statement selects |
| I18n.MissingEntryIsNoOp | js/i18n.js:116-297 | a statement whose dictionary entry is missing or falsy leaves the page as it was, in every mode |
| I18n.MissingEntriesAreNoOps | js/i18n.js:116-218 | a table none of whose entries the dictionary provides changes nothing |
| I18n.CvPath | js/i18n.js:261-263 | the Portuguese CV exactly for `pt`, the English résumé for every other code |
| I18n.UpdateCvLink | js/i18n.js:258-266 | the first résumé link's `href` becomes the language's file; its children, its other attributes and every other element stay; without a link nothing changes |
| I18n.CvLinkLastWriterWins | js/i18n.js:258-266 | the link depends only on the latest language, not on what it held before |
| I18n.CvLinkRoundTrip | js/i18n.js:258-266 | switching the link to another language and back restores it |
| I18n.UpdateLanguage | js/i18n.js:81-229 | without a dictionary entry for the language nothing changes; otherwise the root `lang` and the résumé link follow the language; in the model no element id is added or removed |
| I18n.SiteUpdateLanguage | js/i18n.js:81-229 | `updateLanguage` with the site's own statement table: the same guard, language and element set, and every element with no key that nothing selects is left as it was |
| I18n.UpdateLanguageOnUnselected | js/i18n.js:81-229 | an element that no statement, résumé link or progress label selects receives exactly what the `data-i18n` pass writes |
| I18n.UpdateLanguageRoundTrip | js/i18n.js:81-229 | through `updateLanguage`, switching to `a`, then `b`, then back to `a` leaves such an element as the first switch left it, when its key is truthy in `a` |
| I18n.UpdateLanguageLeavesBystanders | js/i18n.js:81-229 | an element with no key that no statement, résumé link or progress label selects is left exactly as it was |
| I18n.InitialLang | js/i18n.js:30 | a stored non-empty code is used, otherwise `pt`; the result is never empty |
| I18n.Flip | js/i18n.js:56 | the toggle never stays on the same code, goes to `en` exactly from `pt`, and always lands on `pt` or `en` |
| I18n.ToggleAdvertisesTarget | js/i18n.js:67-75 | the toggle's label and aria text name the language a click switches to, never the active one |
| I18n.UpdateToggleText | js/i18n.js:67-75 | the toggle's span shows the label and the toggle gains the aria text with its other attributes kept; the toggle's children (unless it is its own span) and the span's attributes are kept; no other element changes; without a toggle nothing changes |
| I18n.Init | js/i18n.js:19-53 | a failed fetch changes nothing and keeps `pt`; otherwise the language comes from storage, the page's root `lang` follows it when the dictionary has an entry for that language, and the toggle's aria text names the other language |
| I18n.UpdateLanguageKeepsAttr | js/i18n.js:81-112 | `updateLanguage` keeps every attribute other than `placeholder`, `data-words` and `href`, so the toggle's aria text written at start-up survives it |
| I18n.RunStepsKeepsAttr | js/i18n.js:116-218 | the fixed-selector statements write no attribute other than `placeholder` and `data-words` |
| I18n.ToggleClick | js/i18n.js:55-60 | a click flips the language and stores it; the toggle's aria text and span label follow the new language; the toggle's other attributes and children and the span's attributes are as `updateLanguage` leaves them, and so is every other element |
| I18n.ToggleSurvivesReload | js/i18n.js:19-60 | the stored choice is what `init` picks up after a reload, so the page returns in the language the click chose |
| I18n.ToggleTwiceRestoresLanguage | js/i18n.js:55-60 | two clicks from `pt` or `en` restore the language, which storage then holds |
| ContentLoader.LinkClasses | js/content-loader.js:79-82 | the base class comes first; the progress class is present exactly for in-progress entries and the highlight class exactly for highlighted ones |
| ContentLoader.LinkClassesDistinct | js/content-loader.js:79-82 | the two flags are independent: different flag pairs give different class lists |
| ContentLoader.LogoFor | js/content-loader.js:66-93 | a logo image exactly for `alura` and `efset`, with the institution as alt text |
| ContentLoader.ItemFor | js/content-loader.js:72-108 | the badge and progress class exactly when status is `in-progress`, highlight exactly when `isHighlight === true`, hours exactly when truthy |
| ContentLoader.RenderCredentials | js/content-loader.js:72-111 | one item per credential, in input order |
| ContentLoader.PopulateCredentials | js/content-loader.js:59-112 | without a container or with an empty list nothing changes; otherwise the list holds exactly the rendered credentials and none of the old content |
| ContentLoader.PopulateCredentialsIdempotent | js/content-loader.js:59-112 | populating twice equals populating once |
| ContentLoader.AvatarFor | js/content-loader.js:138-146 | a photo exactly when a non-blank URL is given; otherwise the initial, else the name's first character |
| ContentLoader.Quoted | js/content-loader.js:135 | the text wrapped in one double quote on each side |
| ContentLoader.PopulateTestimonials | js/content-loader.js:120-147 | only the first testimonial fills the card's anchors that exist; no anchor appears or disappears |
| ContentLoader.OnlyFirstTestimonialShown | js/content-loader.js:126 | lists that agree on their first entry give the same card |
| ContentLoader.PopulateContact | js/content-loader.js:153-164 | each heading is overwritten only by its own truthy field and only when its anchor exists |
| ContentLoader.ContactFieldsIndependent | js/content-loader.js:157-163 | each heading depends only on its own field |
| ContentLoader.Progress | js/content-loader.js:174 | the integer nearest to 100·current/total with halves rounded up, within 0..100 when 0 ≤ current ≤ total |
| ContentLoader.ProgressExamples | js/content-loader.js:174 | 5/10 gives 50, 1/3 gives 33, 2/3 gives 67 |
| ContentLoader.RenderEach | js/content-loader.js:197-199 | one tag per subject, in order |
| ContentLoader.PopulateEducation | js/content-loader.js:170-203 | the bar and the label get the same percentage, the semester anchor the current semester, and the tags are replaced only when there are subjects |
| ContentLoader.LoadContent | js/content-loader.js:17-52 | a failed fetch changes nothing; each present section, contact included, is bound and each absent one leaves its region alone |
| ContentLoader.LoadContentIdempotent | js/content-loader.js:17-52 | binding the same document twice equals binding it once |
| Theme.SetTheme | js/main.js:99-102 | the root attribute and storage receive the same theme |
| Theme.InitTheme | js/main.js:104-111 | the saved theme when there is one, dark otherwise; afterwards storage holds the shown theme |
| Theme.ToggleTheme | js/main.js:116-119 | dark becomes light and every other theme becomes dark, shown and stored |
| Theme.ToggleTwiceRestores | js/main.js:116-119 | two clicks from dark or light restore the theme |
| Theme.SchemeChange | js/main.js:123-127 | the system scheme applies only while no theme is stored |
| Theme.ReplayStaysSettled | js/main.js:99-127 | every handler keeps a stored theme equal to the shown one |
| Theme.SystemSchemeNeverApplies | js/main.js:104-127 | after start-up, whatever happened since, a system-scheme change never alters the theme |
| MobileMenu.ToggleMenu | js/main.js:170-175 | `aria-expanded` flips between `true` and `false` and both `active` classes toggle |
| MobileMenu.CloseMenu | js/main.js:177-181 | the menu ends collapsed and consistent whatever the state before |
| MobileMenu.ToggleKeepsConsistent | js/main.js:170-175 | a consistent menu stays consistent after a toggle |
| MobileMenu.ToggleTwiceRestores | js/main.js:170-175 | two toggles restore a menu whose attribute is already set |
| MobileMenu.CloseIdempotent | js/main.js:177-181 | closing twice equals closing once |
| MobileMenu.ReplayStaysConsistent | js/main.js:170-184 | any sequence of button and link clicks keeps the three indicators in agreement |
| ContactForm.Mark | js/main.js:321-326 | a required blank field gains `invalid`; no field loses it |
| ContactForm.MarkIdempotent | js/main.js:321-326 | marking twice equals marking once |
| ContactForm.Validate | js/main.js:319-326 | exactly the required blank fields gain the mark, and the form is valid iff no required field is blank |
| ContactForm.FirstInvalid | js/main.js:331 | the first marked field in document order, or none exactly when no field is marked |
| ContactForm.Submit | js/main.js:311-333 | an incomplete form is marked and focuses its first marked field; only a complete one proceeds |
| ContactForm.Input | js/main.js:304-308 | typing changes only that field, and clears its mark exactly when it is a listening input |
| ContactForm.FillingClearsOnlyThatMark | js/main.js:304-308 | filling in a marked listening field clears its mark and no other |
| CaseStudyModal.Shots | js/main.js:452-461 | one screenshot per image source, in order, with the same alt text |
| CaseStudyModal.Gallery | js/main.js:448-469 | the study's screenshots in order, or exactly one placeholder when it has none |
| CaseStudyModal.OpenModal | js/main.js:437-473 | an unknown project or a missing modal changes nothing; otherwise the modal shows the study, the gallery is rebuilt, the modal is active and the body stops scrolling |
| CaseStudyModal.CloseModal | js/main.js:508-513 | the modal becomes inactive and the body scrolls again; its content stays |
| CaseStudyModal.OpenLightbox | js/main.js:483-488 | the lightbox shows the image only when both it and its image element exist |
| CaseStudyModal.CloseLightbox | js/main.js:490-494 | the lightbox becomes inactive and nothing else changes |
| CaseStudyModal.KeyDown | js/main.js:539-544 | Escape hides the modal with its content kept and restores scrolling, and hides the lightbox with its image kept; other keys do nothing |
| CaseStudyModal.ModalClick | js/main.js:530-535 | only a click on the backdrop itself hides the modal, with its content kept and scrolling restored; the lightbox is never touched |
| CaseStudyModal.LightboxClick | js/main.js:500-506 | a click off the image hides the lightbox with its image kept; the modal and scrolling are never touched |
| CaseStudyModal.CloseModalIdempotent | js/main.js:508-513 | closing the modal twice equals closing it once |
| CaseStudyModal.CloseLightboxIdempotent | js/main.js:490-494 | closing the lightbox twice equals closing it once |
| CaseStudyModal.EscapeClosesBoth | js/main.js:539-544 | after Escape neither overlay is active and a second Escape changes nothing |
| CaseStudyModal.OpenThenCloseKeepsContent | js/main.js:437-513 | opening then closing leaves the study's tag, title, problem, solution, result and rebuilt gallery in an inactive modal, with the body scrolling and the lightbox untouched |
| CaseStudyModal.SiteGalleries | js/main.js:28-62 | with the site's own table, AquaFlora shows exactly its three screenshots in order and every other project one placeholder |

## Left out

- Network I/O: `fetch`, `response.ok`, `response.json` and the try/catch
  logging in `init` and `loadContent`. The fetched document is an `Option`
  input, and `None` stands for every failure.
- The contact form's POST and its success and error feedback. This is
  network I/O; `ContactForm.Submit` stops at `Proceed`.
- `innerHTML` parsing and HTML string building. Markup is an opaque node
  (`Dom.Markup`), and rendered credentials, avatars and tags are
  structured records. No escaping is performed by the scripts and none is
  modelled.
- Selector matching. `Page.query` gives each selector's matches. A page
  may list an id that is not one of its elements; `Dom.WellFormed` rules
  that out, and `QueryFirst` states what it guarantees on such pages.
  Descendants are flattened to an element's direct children, so an svg
  nested deeper, or inside markup text, is not found by `FirstSvg`.
- Property lookup on strings and arrays (`"abc"[0]`, `length`) and members
  inherited from `Object.prototype` (a key such as `constructor`). The
  model treats them as missing (`undefined`).
- `textContent = null`. The `data-words` statement passes `null` as text,
  and only its attribute branch is reachable. `Rewrite` writes the
  `String()` form for any text.
- UTF-16 code units. A Dafny `char` is a Unicode scalar value, so
  `charAt(0)` of a name beginning with an astral character differs.
- Floating point. `Math.round(current / total * 100)` is computed on exact
  rationals.
- ContentLoader.Progress: requires `totalSemesters > 0`. A non-positive
  or missing total is not modelled. A zero or missing total yields
  `NaN`/`Infinity` in the source; a negative total yields an ordinary,
  negative or out-of-range percentage.
- ContentLoader.LoadContent: requires the education section to satisfy
  `Computable`, for the same reason.
- I18n.UpdateLanguage: requires that no dictionary section the table reads
  is `undefined` or `null` (`LanguageUsable`). A section holding a string,
  number or boolean only makes its lookups `undefined`, and the model
  covers that. An `undefined` or `null` section makes `t.<section>.<leaf>`
  throw a `TypeError` after the `data-i18n` pass has run.
  - In `init` the surrounding `catch` swallows the error.
  - In the toggle's click handler nothing catches it. The language and
    storage have already changed, and `updateToggleText` never runs.

  That partial state is not modelled.
- I18n.UpdateLanguage: the contract states the language, the résumé link
  and the element set, not every table statement's text. Each statement is
  covered by `TranslateElements`, `UpdatePlaceholder` and `ApplyStep`. The
  elements no statement selects are covered by `UpdateLanguageOnUnselected`
  and `UpdateLanguageRoundTrip`.
- `forEach` over a match list that names one element twice. The model
  rewrites each element once, which is equal because the rewrites are
  idempotent (`I18n.RewriteIdempotent`).
- The `window.i18n.setLang` debugging hook. It sets the language without
  storing it and is not part of the page's behaviour.
- ContentLoader.LoadContent: the content document is a typed record
  (`ContentDoc`), not arbitrary JSON, so every present section has the shape
  the binder expects and no section throws. In the source a section of the
  wrong shape can throw part-way, and the `catch` around the whole load
  then skips every later section. For example, a truthy non-array
  `certifications` such as `{}` passes the length check, clears the list,
  and throws at `forEach`; testimonials, contact and education are then
  never bound. Those partial states are not modelled.
- Testimonial string fields. They are typed strings in the model. In the
  source a missing `authorName` or `authorRole` writes the empty string
  (`textContent = undefined`), and a missing `text` shows `"undefined"` in
  quotes. Only the no-photo avatar path throws, when neither
  `authorInitial` nor `authorName` is present; the later sections are then
  skipped as above.
- The case-study texts. `OpenModal` takes the case-study table as a
  parameter. `CaseStudyModal.ProjectImages` keeps the table's project names
  and image lists, which drive the gallery logic. The `#modalTag` … `#modalResult`
  elements are assumed present, as the source dereferences them without a
  check.
- The mobile menu's markup. `MobileMenu` assumes `.menu-toggle` and the
  navigation list exist, as the source uses them without a check. Without
  `.menu-toggle` the script stops when it attaches the click listener, so
  none of the later handlers modelled in `ContactForm` and `CaseStudyModal`
  are installed. That case is not modelled.
- The submit button. `ContactForm.Submit` assumes `.contact__submit` exists:
  the source reads its text before validating, so without it the handler
  throws and no field is marked.
- Detached descendants. Setting `textContent` or `innerHTML` detaches every
  child element of the rewritten node, and later `querySelectorAll` calls
  no longer return them. In the model the element set and each selector's
  matches are fixed before the run, so an element whose parent was
  rewritten still sits in `elems` and is still matched, and rewritten, by
  later statements.
- ContactForm.FirstInvalid: looks only at the form's fields. The source's
  `form.querySelector('.invalid')` would also find any other element of the
  form carrying that class; the page has none.
- Keyboard focus. `Submit` returns the index of the field to focus; focus
  itself is not modelled.
- Timing, layout and animation code in `js/main.js`: the scroll throttle,
  parallax, scroll progress, reveal and stats observers, navigation
  highlighting, smooth scrolling, animated counters, ripples and video
  hover. These are browser APIs and floating point.

=== FILE: case_study_modal.dfy ===
/**
 * The case-study modal and the screenshot lightbox: opening a project's
 * case study fills the modal and rebuilds its gallery; closing either
 * overlay only clears its `active` class.
 */
module CaseStudyModal {
  import opened Wrappers

  /** One entry of the case-study table; `images` is `None` when the entry has no `images` key. */
  datatype CaseStudy = CaseStudy(
    tag: string, title: string, problem: string, solution: string, result: string,
    images: Option<seq<string>>)

  /** The project names that have a case study, with each entry's `images`. */
  const ProjectImages: map<string, Option<seq<string>>> := map[
    "JoysticKnights" := None,
    "AquaFlora AgroShop" := Some([
      "assets/AquaFlora/AquaFlora Home.webp",
      "assets/AquaFlora/AquaFlora Loja.webp",
      "assets/AquaFlora/Estoque AquaFlora.webp"]),
    "Kingdom of Aen" := None,
    "Home Lab & Hardware" := None
  ]

  const PlaceholderText: string := "Galeria em breve"
  const AltSuffix: string := " Screenshot"

  /** A child of the gallery container. */
  datatype GalleryItem = Shot(src: string, alt: string) | Placeholder(text: string)

  /** The modal's text slots; `gallery` is `None` when there is no `#modalImages` container. */
  datatype Modal = Modal(
    active: bool, tag: string, title: string, problem: string, solution: string, result: string,
    gallery: Option<seq<GalleryItem>>)

  /** `image` is the `src` of `#lightboxImage`, `None` when that element is missing. */
  datatype Lightbox = Lightbox(active: bool, image: Option<string>)

  /** Both overlays (each `None` when its element is missing) and the body's `overflow` style. */
  datatype Overlays = Overlays(modal: Option<Modal>, bodyOverflow: string, lightbox: Option<Lightbox>)

  /** The gallery counts as having images when the array exists and is non-empty. */
  predicate HasImages(study: CaseStudy) {
    study.images.Some? && |study.images.value| > 0
  }

  /** One screenshot per source, in order, each with the same alt text. */
  function Shots(images: seq<string>, alt: string): (r: seq<GalleryItem>)
    ensures |r| == |images|
    ensures forall i :: 0 <= i < |images| ==> r[i] == Shot(images[i], alt)
  {
    if |images| == 0 then [] else [Shot(images[0], alt)] + Shots(images[1..], alt)
  }

  /** The gallery rebuilt for a study: its screenshots, or exactly one placeholder. */
  function Gallery(study: CaseStudy): (r: seq<GalleryItem>)
    ensures HasImages(study) ==> |r| == |study.images.value|
    ensures HasImages(study) ==>
      forall i :: 0 <= i < |r| ==> r[i] == Shot(study.images.value[i], study.title + AltSuffix)
    ensures !HasImages(study) ==> r == [Placeholder(PlaceholderText)]
  {
    if HasImages(study) then Shots(study.images.value, study.title + AltSuffix)
    else [Placeholder(PlaceholderText)]
  }

  /** `openModal(name)`. */
  function OpenModal(o: Overlays, studies: map<string, CaseStudy>, name: string): (r: Overlays)
    ensures name !in studies || o.modal.None? ==> r == o
    ensures name in studies && o.modal.Some? ==> r.modal.Some?
    ensures name in studies && o.modal.Some? ==>
      var s := studies[name];
      var m := r.modal.value;
      m.active && r.bodyOverflow == "hidden" && r.lightbox == o.lightbox
      && m.tag == s.tag && m.title == s.title && m.problem == s.problem
      && m.solution == s.solution && m.result == s.result
      && (m.gallery.Some? <==> o.modal.value.gallery.Some?)
      && (m.gallery.Some? ==> m.gallery.value == Gallery(s))
  {
    if name in studies && o.modal.Some? then
      var s := studies[name];
      var prev := o.modal.value;
      var gallery := if prev.gallery.Some? then Some(Gallery(s)) else None;
      o.(modal := Some(Modal(true, s.tag, s.title, s.problem, s.solution, s.result, gallery)),
         bodyOverflow := "hidden")
    else o
  }

  /** `closeModal()`: the modal loses `active` and the body scrolls again; its content stays. */
  function CloseModal(o: Overlays): (r: Overlays)
    ensures o.modal.None? ==> r == o
    ensures o.modal.Some? ==>
      r.modal.Some? && !r.modal.value.active && r.bodyOverflow == ""
      && r.modal.value.(active := true) == o.modal.value.(active := true)
    ensures r.lightbox == o.lightbox
  {
    if o.modal.Some? then o.(modal := Some(o.modal.value.(active := false)), bodyOverflow := "")
    else o
  }

  /** `openLightbox(src)`: only when both the lightbox and its image exist. */
  function OpenLightbox(o: Overlays, src: string): (r: Overlays)
    ensures o.lightbox.None? || o.lightbox.value.image.None? ==> r == o
    ensures o.lightbox.Some? && o.lightbox.value.image.Some? ==>
      r.lightbox == Some(Lightbox(true, Some(src)))
    ensures r.modal == o.modal && r.bodyOverflow == o.bodyOverflow
  {
    if o.lightbox.Some? && o.lightbox.value.image.Some? then
      o.(lightbox := Some(Lightbox(true, Some(src))))
    else o
  }

  /** `closeLightbox()`. */
  function CloseLightbox(o: Overlays): (r: Overlays)
    ensures o.lightbox.None? ==> r == o
    ensures o.lightbox.Some? ==> r.lightbox == Some(o.lightbox.value.(active := false))
    ensures r.modal == o.modal && r.bodyOverflow == o.bodyOverflow
  {
    if o.lightbox.Some? then o.(lightbox := Some(o.lightbox.value.(active := false))) else o
  }

  /** The document's `keydown` listener: Escape closes the modal, then the lightbox. */
  function KeyDown(o: Overlays, key: string): (r: Overlays)
    ensures key != "Escape" ==> r == o
    ensures key == "Escape" ==> r == CloseLightbox(CloseModal(o))
    // Escape: the modal is hidden with its content kept and the page scrolls again; the lightbox is hidden
    ensures key == "Escape" && o.modal.Some? ==>
      r.modal.Some? && !r.modal.value.active && r.bodyOverflow == ""
      && r.modal.value.(active := true) == o.modal.value.(active := true)
    ensures key == "Escape" && o.lightbox.Some? ==>
      r.lightbox.Some? && !r.lightbox.value.active && r.lightbox.value.(active := true) == o.lightbox.value.(active := true)
    ensures r.modal.None? <==> o.modal.None?
    ensures r.lightbox.None? <==> o.lightbox.None?
  {
    if key == "Escape" then CloseLightbox(CloseModal(o)) else o
  }

  /** A click on the modal closes it only when it lands on the backdrop itself. */
  function ModalClick(o: Overlays, onBackdrop: bool): (r: Overlays)
    ensures !onBackdrop ==> r == o
    ensures onBackdrop ==> r == CloseModal(o)
    // on the backdrop: the modal is hidden with its content kept, the page scrolls, the lightbox is untouched
    ensures onBackdrop && o.modal.Some? ==>
      r.modal.Some? && !r.modal.value.active && r.bodyOverflow == ""
      && r.modal.value.(active := true) == o.modal.value.(active := true)
    ensures r.lightbox == o.lightbox
  {
    if onBackdrop then CloseModal(o) else o
  }

  /** A click on the lightbox closes it unless it lands on the image. */
  function LightboxClick(o: Overlays, onImage: bool): (r: Overlays)
    ensures onImage ==> r == o
    ensures !onImage ==> r == CloseLightbox(o)
    // off the image: the lightbox is hidden with its image kept; the modal and scrolling are untouched
    ensures !onImage && o.lightbox.Some? ==>
      r.lightbox.Some? && !r.lightbox.value.active && r.lightbox.value.(active := true) == o.lightbox.value.(active := true)
    ensures r.modal == o.modal && r.bodyOverflow == o.bodyOverflow
  {
    if onImage then o else CloseLightbox(o)
  }

  lemma CloseModalIdempotent(o: Overlays)
    ensures CloseModal(CloseModal(o)) == CloseModal(o)
  {
  }

  lemma CloseLightboxIdempotent(o: Overlays)
    ensures CloseLightbox(CloseLightbox(o)) == CloseLightbox(o)
  {
  }

  /** After Escape neither overlay is active, and a second Escape changes nothing. */
  lemma EscapeClosesBoth(o: Overlays)
    ensures
      var r := KeyDown(o, "Escape");
      (r.modal.Some? ==> !r.modal.value.active && r.bodyOverflow == "")
      && (r.lightbox.Some? ==> !r.lightbox.value.active)
      && KeyDown(r, "Escape") == r
  {
    CloseModalIdempotent(CloseLightbox(o));
    CloseLightboxIdempotent(o);
  }

  /** Opening and then closing leaves the study's whole content in an inactive modal. */
  lemma OpenThenCloseKeepsContent(o: Overlays, studies: map<string, CaseStudy>, name: string)
    requires name in studies && o.modal.Some?
    ensures
      var st := studies[name];
      var r := CloseModal(OpenModal(o, studies, name));
      var m := r.modal.value;
      && !m.active && r.bodyOverflow == "" && r.lightbox == o.lightbox
      && m.tag == st.tag && m.title == st.title && m.problem == st.problem
      && m.solution == st.solution && m.result == st.result
      && (m.gallery.Some? <==> o.modal.value.gallery.Some?)
      && (m.gallery.Some? ==> m.gallery.value == Gallery(st))
  {
  }

  /**
   * With the site's own table, the AquaFlora case study shows its three
   * screenshots in order and every other project a single placeholder.
   */
  lemma SiteGalleries(studies: map<string, CaseStudy>, name: string)
    requires forall n :: n in ProjectImages ==> n in studies && studies[n].images == ProjectImages[n]
    requires name in ProjectImages
    ensures name == "AquaFlora AgroShop" ==>
      var alt := studies[name].title + AltSuffix;
      Gallery(studies[name]) == [
        Shot("assets/AquaFlora/AquaFlora Home.webp", alt),
        Shot("assets/AquaFlora/AquaFlora Loja.webp", alt),
        Shot("assets/AquaFlora/Estoque AquaFlora.webp", alt)]
    ensures name != "AquaFlora AgroShop" ==> Gallery(studies[name]) == [Placeholder(PlaceholderText)]
  {
  }
}

=== FILE: contact_form.dfy ===
/**
 * The contact form's client-side validation: which fields are marked
 * `invalid` on submit, whether the submission goes ahead, and how typing
 * clears a mark.
 */
module ContactForm {
  import opened Wrappers
  import opened JsString

  /**
   * One form control in document order. `required` is the `required`
   * attribute; `listens` says whether the control is a `.contact__input` or
   * `.contact__textarea`, the ones given an `input` listener; `invalid` is
   * the `invalid` class.
   */
  datatype Field = Field(value: string, required: bool, listens: bool, invalid: bool)

  /** A required field whose value trims to the empty string. */
  predicate Missing(f: Field) {
    f.required && IsBlank(f.value)
  }

  predicate AllFilled(fields: seq<Field>) {
    forall i :: 0 <= i < |fields| ==> !Missing(fields[i])
  }

  /** The same control, apart from its `invalid` class. */
  predicate SameControl(a: Field, b: Field) {
    a.value == b.value && a.required == b.required && a.listens == b.listens
  }

  /** The effect of the submit check on one field: a missing field gains the mark, nothing loses it. */
  function Mark(f: Field): (r: Field)
    ensures SameControl(r, f)
    ensures r.invalid <==> f.invalid || Missing(f)
  {
    if Missing(f) then f.(invalid := true) else f
  }

  /** Marking twice is marking once. */
  lemma MarkIdempotent(f: Field)
    ensures Mark(Mark(f)) == Mark(f)
  {
  }

  /**
   * The loop over the `[required]` fields: every required field whose value
   * trims to nothing gains `invalid`, and the form is valid exactly when
   * there is none.
   */
  method Validate(fields: seq<Field>) returns (marked: seq<Field>, isValid: bool)
    ensures |marked| == |fields|
    ensures isValid <==> AllFilled(fields)
    ensures forall i :: 0 <= i < |fields| ==> marked[i] == Mark(fields[i])
  {
    marked := [];
    isValid := true;
    var i := 0;
    while i < |fields|
      invariant 0 <= i <= |fields|
      invariant |marked| == i
      invariant forall k :: 0 <= k < i ==> marked[k] == Mark(fields[k])
      invariant isValid <==> forall k :: 0 <= k < i ==> !Missing(fields[k])
    {
      var f := fields[i];
      TrimEmptyIffBlank(f.value);
      if f.required && Trim(f.value) == "" {
        f := f.(invalid := true);
        isValid := false;
      }
      marked := marked + [f];
      i := i + 1;
    }
  }

  /** `form.querySelector('.invalid')`: the first marked control in document order. */
  function FirstInvalid(fields: seq<Field>): (r: Option<nat>)
    ensures r.Some? ==> r.value < |fields| && fields[r.value].invalid
    ensures r.Some? ==> forall j :: 0 <= j < r.value ==> !fields[j].invalid
    ensures r.None? <==> forall j :: 0 <= j < |fields| ==> !fields[j].invalid
    decreases |fields|
  {
    if |fields| == 0 then None
    else if fields[0].invalid then Some(0)
    else
      match FirstInvalid(fields[1..])
      case None => None
      case Some(k) => Some(k + 1)
  }

  /** `Blocked` focuses a control and stops; `Proceed` goes on to post the form. */
  datatype Outcome = Blocked(focus: nat) | Proceed

  /**
   * The submit handler up to the network request: an incomplete form is
   * marked and the first marked control is focused, and only a complete one
   * proceeds.
   */
  method Submit(fields: seq<Field>) returns (after: seq<Field>, outcome: Outcome)
    ensures |after| == |fields|
    ensures forall i :: 0 <= i < |fields| ==> after[i] == Mark(fields[i])
    ensures outcome.Proceed? <==> AllFilled(fields)
    ensures outcome.Blocked? ==> outcome.focus < |after| && after[outcome.focus].invalid
    ensures outcome.Blocked? ==> forall j :: 0 <= j < outcome.focus ==> !after[j].invalid
  {
    var isValid;
    after, isValid := Validate(fields);
    if isValid {
      outcome := Proceed;
    } else {
      var k :| 0 <= k < |fields| && Missing(fields[k]);
      assert after[k].invalid;
      var first := FirstInvalid(after);
      assert first.Some?;
      outcome := Blocked(first.value);
    }
  }

  /** Typing `typed` into control `i`: its value changes and, if it listens, its mark is removed. */
  function Input(fields: seq<Field>, i: nat, typed: string): (r: seq<Field>)
    requires i < |fields|
    ensures |r| == |fields|
    ensures forall j :: 0 <= j < |fields| && j != i ==> r[j] == fields[j]
    ensures r[i].value == typed && r[i].required == fields[i].required && r[i].listens == fields[i].listens
    ensures r[i].invalid <==> fields[i].invalid && !fields[i].listens
  {
    var f := fields[i].(value := typed);
    fields[i := if f.listens then f.(invalid := false) else f]
  }

  /** After a blocked submit, filling in a listening field clears its mark and leaves every other mark alone. */
  lemma FillingClearsOnlyThatMark(fields: seq<Field>, i: nat, typed: string)
    requires i < |fields| && fields[i].listens && fields[i].invalid
    ensures !Input(fields, i, typed)[i].invalid
    ensures forall j :: 0 <= j < |fields| && j != i ==> Input(fields, i, typed)[j].invalid == fields[j].invalid
  {
  }
}

=== FILE: content_loader.dfy ===
/**
 * The content binder: fills the credentials list, the testimonial card, the
 * contact heading and the education block from the fetched content document.
 * Every region is a value of `ContentView`; an anchor the page lacks is `None`.
 */
module ContentLoader {
  import opened Wrappers
  import opened JsValue
  import opened JsString

  // ---------------------------------------------------------------------------
  // The content document
  // ---------------------------------------------------------------------------

  /** A certification entry. Fields are raw JSON values: the binder tests them with `===` and truthiness. */
  datatype Credential = Credential(
    title: Json, institution: Json, credentialUrl: Json,
    logo: Json, hours: Json, status: Json, isHighlight: Json)

  /** A testimonial entry; `authorPhoto` and `authorInitial` may be absent. */
  datatype Testimonial = Testimonial(
    authorName: string, authorRole: string, text: string,
    authorPhoto: Option<string>, authorInitial: Option<string>)

  datatype Contact = Contact(sectionTitle: Json, sectionSubtitle: Json)

  /** `expectedYear` is read by the binder but never written anywhere. */
  datatype Education = Education(
    currentSemester: int, totalSemesters: int, expectedYear: Json, subjects: Option<seq<Json>>)

  /** The parsed document: each top-level section is optional. */
  datatype ContentDoc = ContentDoc(
    certifications: Option<seq<Credential>>,
    testimonials: Option<seq<Testimonial>>,
    contact: Option<Contact>,
    education: Option<Education>)

  // ---------------------------------------------------------------------------
  // The page regions the binder writes
  // ---------------------------------------------------------------------------

  datatype Badge = Badge(i18nKey: string, text: string)
  datatype Logo = Logo(src: string, alt: string)

  /** One rendered `<li class="credential-item">`. */
  datatype CredentialItem = CredentialItem(
    href: string, classes: seq<string>, logo: Option<Logo>,
    title: string, badge: Option<Badge>, institution: string, hours: Option<string>)

  /** A child of the credentials list: the static fallback markup or a rendered item. */
  datatype ListEntry = Fallback(markup: string) | Rendered(item: CredentialItem)

  datatype Avatar = AvatarMarkup(html: string) | AvatarPhoto(src: string, alt: string) | AvatarInitial(initial: string)

  /** The testimonial card's anchors, each `None` when the markup lacks it, else its current content. */
  datatype TestimonialCard = TestimonialCard(
    name: Option<string>, role: Option<string>, text: Option<string>, avatar: Option<Avatar>)

  /**
   * The education anchors: the bar's width and the label's `data-progress`
   * in percent and the semester's `data-semester` (outer `None`: anchor
   * missing; inner `None`: not set yet), and the subject tag labels.
   */
  datatype EducationView = EducationView(
    barWidth: Option<Option<int>>, progressAttr: Option<Option<int>>,
    semesterAttr: Option<Option<int>>, tags: Option<seq<string>>)

  datatype ContentView = ContentView(
    credentials: Option<seq<ListEntry>>,
    testimonial: Option<TestimonialCard>,
    contactTitle: Option<string>,
    contactSubtitle: Option<string>,
    education: EducationView)

  // ---------------------------------------------------------------------------
  // Credentials
  // ---------------------------------------------------------------------------

  const LinkClass: string := "credential-link"
  const ProgressClass: string := "credential-link--progress"
  const HighlightClass: string := "credential-link--highlight"
  const InProgressBadge: Badge := Badge("credentials.in_progress", "Em andamento")
  const LogoTable: map<string, string> :=
    map["alura" := "assets/icons/Alura.png", "efset" := "assets/icons/EF_SET_logo.svg"]

  /** `cred.status === 'in-progress'`. */
  predicate InProgress(c: Credential) {
    c.status == Str("in-progress")
  }

  /** `cred.isHighlight === true`. */
  predicate Highlighted(c: Credential) {
    c.isHighlight == Bool(true)
  }

  /** The link's class list: the base class, then the progress and highlight variants as they apply. */
  function LinkClasses(inProgress: bool, highlight: bool): (classes: seq<string>)
    ensures |classes| >= 1 && classes[0] == LinkClass
    ensures ProgressClass in classes <==> inProgress
    ensures HighlightClass in classes <==> highlight
  {
    [LinkClass] + (if inProgress then [ProgressClass] else []) + (if highlight then [HighlightClass] else [])
  }

  /** The two flags are independent: the four combinations give four different class lists. */
  lemma LinkClassesDistinct(a: bool, b: bool, c: bool, d: bool)
    requires LinkClasses(a, b) == LinkClasses(c, d)
    ensures a == c && b == d
  {
    assert ProgressClass in LinkClasses(a, b) <==> a;
    assert HighlightClass in LinkClasses(c, d) <==> d;
  }

  /** `logoMap[cred.logo] || ''`: an image exactly for the two known logos, captioned with the institution. */
  function LogoFor(c: Credential): (r: Option<Logo>)
    ensures r.Some? <==> Render(c.logo) == "alura" || Render(c.logo) == "efset"
    ensures r.Some? ==> r.value.src == LogoTable[Render(c.logo)] && r.value.alt == Render(c.institution)
  {
    var key := Render(c.logo);
    var src := if key in LogoTable then LogoTable[key] else "";
    if src != "" then Some(Logo(src, Render(c.institution))) else None
  }

  /** One credential's presentation. */
  function ItemFor(c: Credential): (item: CredentialItem)
    ensures item.badge.Some? <==> InProgress(c)
    ensures item.badge.Some? ==> item.badge.value == InProgressBadge
    ensures ProgressClass in item.classes <==> InProgress(c)
    ensures HighlightClass in item.classes <==> Highlighted(c)
    ensures item.hours.Some? <==> Truthy(c.hours)
    ensures item.hours.Some? ==> item.hours.value == Render(c.hours)
    ensures item.logo.Some? <==> Render(c.logo) in LogoTable
    ensures item.href == Render(c.credentialUrl) && item.title == Render(c.title) && item.institution == Render(c.institution)
  {
    CredentialItem(
      href := Render(c.credentialUrl),
      classes := LinkClasses(InProgress(c), Highlighted(c)),
      logo := LogoFor(c),
      title := Render(c.title),
      badge := if InProgress(c) then Some(InProgressBadge) else None,
      institution := Render(c.institution),
      hours := if Truthy(c.hours) then Some(Render(c.hours)) else None)
  }

  /** `credentials.forEach(… appendChild …)`: one item per credential, in input order. */
  function RenderCredentials(creds: seq<Credential>): (items: seq<ListEntry>)
    ensures |items| == |creds|
    ensures forall i :: 0 <= i < |creds| ==> items[i] == Rendered(ItemFor(creds[i]))
  {
    if |creds| == 0 then [] else [Rendered(ItemFor(creds[0]))] + RenderCredentials(creds[1..])
  }

  /**
   * `populateCredentials`: without a container or with an empty list nothing
   * changes; otherwise the list is cleared and holds exactly the rendered
   * credentials, in order, and nothing of what was there before.
   */
  function PopulateCredentials(list: Option<seq<ListEntry>>, creds: seq<Credential>): (r: Option<seq<ListEntry>>)
    ensures list.None? || |creds| == 0 ==> r == list
    ensures list.Some? && |creds| > 0 ==>
      && r.Some? && |r.value| == |creds|
      && forall i :: 0 <= i < |creds| ==> r.value[i] == Rendered(ItemFor(creds[i]))
  {
    if list.None? || |creds| == 0 then list else Some(RenderCredentials(creds))
  }

  /** A full replace: populating twice with the same list is populating once. */
  lemma PopulateCredentialsIdempotent(list: Option<seq<ListEntry>>, creds: seq<Credential>)
    ensures PopulateCredentials(PopulateCredentials(list, creds), creds) == PopulateCredentials(list, creds)
  {
  }

  // ---------------------------------------------------------------------------
  // Testimonials
  // ---------------------------------------------------------------------------

  /** The avatar: a photo when a non-blank URL is given, else the initial, else the name's first character. */
  function AvatarFor(t: Testimonial): (a: Avatar)
    ensures a.AvatarPhoto? <==> t.authorPhoto.Some? && !IsBlank(t.authorPhoto.value)
    ensures a.AvatarPhoto? ==> a == AvatarPhoto(t.authorPhoto.value, t.authorName)
    ensures !a.AvatarPhoto? && t.authorInitial.Some? && t.authorInitial.value != "" ==>
      a == AvatarInitial(t.authorInitial.value)
    ensures !a.AvatarPhoto? && (t.authorInitial.None? || t.authorInitial.value == "") ==>
      a == AvatarInitial(if |t.authorName| > 0 then [t.authorName[0]] else "")
  {
    if t.authorPhoto.Some? && t.authorPhoto.value != "" && Trim(t.authorPhoto.value) != "" then
      AvatarPhoto(t.authorPhoto.value, t.authorName)
    else
      TrimEmptyIffBlank(t.authorPhoto.GetOr(""));
      var initial := if t.authorInitial.Some? && t.authorInitial.value != "" then t.authorInitial.value
                     else if |t.authorName| > 0 then [t.authorName[0]] else "";
      AvatarInitial(initial)
  }

  /** The quoted testimonial text: `"` + text + `"`. */
  function Quoted(text: string): (q: string)
    ensures |q| == |text| + 2 && q[0] == '"' && q[|q| - 1] == '"' && q[1..|q| - 1] == text
  {
    "\"" + text + "\""
  }

  /**
   * `populateTestimonials`: without the grid or with an empty list nothing
   * changes; otherwise the first testimonial fills every anchor the card has
   * and the card's set of anchors stays the same.
   */
  function PopulateTestimonials(card: Option<TestimonialCard>, ts: seq<Testimonial>): (r: Option<TestimonialCard>)
    ensures card.None? || |ts| == 0 ==> r == card
    ensures r.Some? == card.Some?
    ensures card.Some? && |ts| > 0 ==>
      var c := card.value;
      var d := r.value;
      && d.name.Some? == c.name.Some? && d.role.Some? == c.role.Some?
      && d.text.Some? == c.text.Some? && d.avatar.Some? == c.avatar.Some?
      && (d.name.Some? ==> d.name.value == ts[0].authorName)
      && (d.role.Some? ==> d.role.value == ts[0].authorRole)
      && (d.text.Some? ==> d.text.value == Quoted(ts[0].text))
      && (d.avatar.Some? ==> d.avatar.value == AvatarFor(ts[0]))
  {
    if card.None? || |ts| == 0 then card
    else
      var t := ts[0];
      var c := card.value;
      Some(TestimonialCard(
        name := if c.name.Some? then Some(t.authorName) else None,
        role := if c.role.Some? then Some(t.authorRole) else None,
        text := if c.text.Some? then Some(Quoted(t.text)) else None,
        avatar := if c.avatar.Some? then Some(AvatarFor(t)) else None))
  }

  /** Only the first testimonial is shown: lists that agree on it give the same card. */
  lemma OnlyFirstTestimonialShown(card: Option<TestimonialCard>, a: seq<Testimonial>, b: seq<Testimonial>)
    requires |a| > 0 && |b| > 0 && a[0] == b[0]
    ensures PopulateTestimonials(card, a) == PopulateTestimonials(card, b)
  {
  }

  // ---------------------------------------------------------------------------
  // Contact
  // ---------------------------------------------------------------------------

  /** `populateContact`: the title and the subtitle are each overwritten only by their own truthy field. */
  function PopulateContact(v: ContentView, c: Contact): (r: ContentView)
    ensures r.credentials == v.credentials && r.testimonial == v.testimonial && r.education == v.education
    ensures v.contactTitle.Some? && Truthy(c.sectionTitle) ==> r.contactTitle == Some(Render(c.sectionTitle))
    ensures v.contactTitle.None? || !Truthy(c.sectionTitle) ==> r.contactTitle == v.contactTitle
    ensures v.contactSubtitle.Some? && Truthy(c.sectionSubtitle) ==> r.contactSubtitle == Some(Render(c.sectionSubtitle))
    ensures v.contactSubtitle.None? || !Truthy(c.sectionSubtitle) ==> r.contactSubtitle == v.contactSubtitle
  {
    var titled := if v.contactTitle.Some? && Truthy(c.sectionTitle) then v.(contactTitle := Some(Render(c.sectionTitle))) else v;
    if titled.contactSubtitle.Some? && Truthy(c.sectionSubtitle) then titled.(contactSubtitle := Some(Render(c.sectionSubtitle))) else titled
  }

  /** Each heading depends only on its own field. */
  lemma ContactFieldsIndependent(v: ContentView, a: Contact, b: Contact)
    ensures a.sectionTitle == b.sectionTitle ==> PopulateContact(v, a).contactTitle == PopulateContact(v, b).contactTitle
    ensures a.sectionSubtitle == b.sectionSubtitle ==> PopulateContact(v, a).contactSubtitle == PopulateContact(v, b).contactSubtitle
  {
  }

  // ---------------------------------------------------------------------------
  // Education
  // ---------------------------------------------------------------------------

  /**
   * `Math.round(current / total * 100)` on exact rationals: the integer
   * nearest to `100 * current / total`, halves rounded up.
   */
  function Progress(current: int, total: int): (r: int)
    requires total > 0
    ensures 2 * total * r - total <= 200 * current < 2 * total * r + total
    ensures 0 <= current <= total ==> 0 <= r <= 100
  {
    var d := 2 * total;
    var n := 200 * current + total;
    var q := n / d;
    assert n == d * q + n % d && 0 <= n % d < d;
    assert 0 <= current <= total ==> 0 <= q <= 100 by {
      if 0 <= current <= total {
        if q > 100 {
          assert d * q >= d * 101 by { MulLeMono(d, 101, q); }
        }
      }
    }
    q
  }

  /** Multiplying by a positive number keeps order. */
  lemma MulLeMono(d: int, a: int, b: int)
    requires d > 0 && a <= b
    ensures d * a <= d * b
  {
    assert d * b - d * a == d * (b - a);
  }

  /** Rounding at the boundaries: an exact half rounds up (5/10), thirds round to nearest. */
  lemma ProgressExamples()
    ensures Progress(5, 10) == 50
    ensures Progress(1, 3) == 33
    ensures Progress(2, 3) == 67
  {
  }

  /** The subjects' labels, in order. */
  function RenderEach(xs: seq<Json>): (r: seq<string>)
    ensures |r| == |xs|
    ensures forall i :: 0 <= i < |xs| ==> r[i] == Render(xs[i])
  {
    if |xs| == 0 then [] else [Render(xs[0])] + RenderEach(xs[1..])
  }

  /** The subjects list is present and non-empty: only then are the tags replaced. */
  predicate HasSubjects(e: Education) {
    e.subjects.Some? && |e.subjects.value| > 0
  }

  /**
   * `populateEducation`: the bar's width and the label's `data-progress`
   * receive the same percentage, the semester anchor receives the current
   * semester, and the tags are replaced by the subjects only when there are
   * subjects.
   */
  function PopulateEducation(v: EducationView, e: Education): (r: EducationView)
    requires e.totalSemesters > 0
    ensures r.barWidth.Some? == v.barWidth.Some? && r.progressAttr.Some? == v.progressAttr.Some?
    ensures r.semesterAttr.Some? == v.semesterAttr.Some? && r.tags.Some? == v.tags.Some?
    ensures r.barWidth.Some? ==> r.barWidth.value == Some(Progress(e.currentSemester, e.totalSemesters))
    ensures r.progressAttr.Some? ==> r.progressAttr.value == Some(Progress(e.currentSemester, e.totalSemesters))
    ensures r.semesterAttr.Some? ==> r.semesterAttr.value == Some(e.currentSemester)
    ensures !HasSubjects(e) ==> r.tags == v.tags
    ensures v.tags.Some? && HasSubjects(e) ==>
      && |r.tags.value| == |e.subjects.value|
      && forall i :: 0 <= i < |e.subjects.value| ==> r.tags.value[i] == Render(e.subjects.value[i])
  {
    var progress := Progress(e.currentSemester, e.totalSemesters);
    EducationView(
      barWidth := if v.barWidth.Some? then Some(Some(progress)) else None,
      progressAttr := if v.progressAttr.Some? then Some(Some(progress)) else None,
      semesterAttr := if v.semesterAttr.Some? then Some(Some(e.currentSemester)) else None,
      tags := if v.tags.Some? && HasSubjects(e) then Some(RenderEach(e.subjects.value)) else v.tags)
  }

  // ---------------------------------------------------------------------------
  // loadContent
  // ---------------------------------------------------------------------------

  /** What the document demands so that the progress percentage is a number. */
  predicate Computable(doc: ContentDoc) {
    doc.education.Some? ==> doc.education.value.totalSemesters > 0
  }

  /**
   * `loadContent`: a failed fetch (`None`) changes nothing; otherwise each
   * section present in the document is bound and each absent one leaves its
   * region as it was.
   */
  function LoadContent(doc: Option<ContentDoc>, v: ContentView): (r: ContentView)
    requires doc.Some? ==> Computable(doc.value)
    ensures doc.None? ==> r == v
    ensures doc.Some? && doc.value.certifications.None? ==> r.credentials == v.credentials
    ensures doc.Some? && doc.value.testimonials.None? ==> r.testimonial == v.testimonial
    ensures doc.Some? && doc.value.contact.None? ==>
      r.contactTitle == v.contactTitle && r.contactSubtitle == v.contactSubtitle
    ensures doc.Some? && doc.value.education.None? ==> r.education == v.education
    ensures doc.Some? && doc.value.certifications.Some? ==>
      r.credentials == PopulateCredentials(v.credentials, doc.value.certifications.value)
    ensures doc.Some? && doc.value.testimonials.Some? ==>
      r.testimonial == PopulateTestimonials(v.testimonial, doc.value.testimonials.value)
    ensures doc.Some? && doc.value.education.Some? ==>
      r.education == PopulateEducation(v.education, doc.value.education.value)
    ensures doc.Some? && doc.value.contact.Some? ==>
      r.contactTitle == PopulateContact(v, doc.value.contact.value).contactTitle
      && r.contactSubtitle == PopulateContact(v, doc.value.contact.value).contactSubtitle
  {
    match doc
    case None => v
    case Some(d) =>
      var v1 := if d.certifications.Some? then v.(credentials := PopulateCredentials(v.credentials, d.certifications.value)) else v;
      var v2 := if d.testimonials.Some? then v1.(testimonial := PopulateTestimonials(v1.testimonial, d.testimonials.value)) else v1;
      var v3 := if d.contact.Some? then PopulateContact(v2, d.contact.value) else v2;
      if d.education.Some? then v3.(education := PopulateEducation(v3.education, d.education.value)) else v3
  }

  /** Binding the same document twice leaves the page as binding it once. */
  lemma LoadContentIdempotent(doc: Option<ContentDoc>, v: ContentView)
    requires doc.Some? ==> Computable(doc.value)
    ensures LoadContent(doc, LoadContent(doc, v)) == LoadContent(doc, v)
  {
  }
}

=== FILE: dom.dfy ===
/**
 * An abstract page: elements with their child nodes and attributes, and the
 * result of every selector the scripts query, in document order. Selector
 * matching itself is not modelled: a selector is an abstract name for the
 * list of elements it matches in the host markup.
 */
module Dom {
  import opened Wrappers

  type Id = nat

  /**
   * A child of an element: a text node, markup assigned through `innerHTML`
   * (kept unparsed), or a child element known by its tag name and identity.
   */
  datatype Node =
    | Text(s: string)
    | Markup(html: string)
    | Tagged(tag: string, ident: nat)

  datatype Element = Element(children: seq<Node>, attrs: map<string, string>)

  /** `elems` holds every element; `query` the matches of each selector the scripts use; `lang` is the root's `lang`. */
  datatype Page = Page(elems: map<Id, Element>, query: map<string, seq<Id>>, lang: string)

  /** The text the element's text nodes hold, in order. */
  function TextOf(nodes: seq<Node>): string
  {
    if |nodes| == 0 then ""
    else (if nodes[0].Text? then nodes[0].s else "") + TextOf(nodes[1..])
  }

  /** The element holds no child element, only text. */
  predicate TextOnly(e: Element) {
    forall i :: 0 <= i < |e.children| ==> e.children[i].Text?
  }

  /** `el.textContent = s`: every child is replaced by the text `s` (by nothing when `s` is empty). */
  function SetText(e: Element, s: string): (r: Element)
    ensures r.attrs == e.attrs
    ensures TextOnly(r) && TextOf(r.children) == s
    ensures |r.children| <= 1
  {
    e.(children := if s == "" then [] else [Text(s)])
  }

  /** `el.innerHTML = html`: every child is replaced by the (unparsed) markup. */
  function SetMarkup(e: Element, html: string): (r: Element)
    ensures r.attrs == e.attrs
    ensures html != "" ==> r.children == [Markup(html)]
    ensures html == "" ==> r.children == []
  {
    e.(children := if html == "" then [] else [Markup(html)])
  }

  /** `el.setAttribute(name, value)`. */
  function SetAttr(e: Element, name: string, value: string): (r: Element)
    ensures r.children == e.children
    ensures name in r.attrs && r.attrs[name] == value
    ensures forall n :: n in e.attrs && n != name ==> n in r.attrs && r.attrs[n] == e.attrs[n]
    ensures r.attrs.Keys == e.attrs.Keys + {name}
  {
    e.(attrs := e.attrs[name := value])
  }

  /** `el.querySelector('svg')` over the element's children: the first `svg` child, if any. */
  function FirstSvg(nodes: seq<Node>): (r: Option<Node>)
    ensures r.Some? ==> r.value in nodes && r.value.Tagged? && r.value.tag == "svg"
    ensures r.Some? ==> exists k :: (0 <= k < |nodes| && nodes[k] == r.value
      && forall j :: 0 <= j < k ==> !(nodes[j].Tagged? && nodes[j].tag == "svg"))
    ensures r.None? ==> forall i :: 0 <= i < |nodes| ==> !(nodes[i].Tagged? && nodes[i].tag == "svg")
  {
    if |nodes| == 0 then None
    else if nodes[0].Tagged? && nodes[0].tag == "svg" then Some(nodes[0])
    else
      var rest := FirstSvg(nodes[1..]);
      assert rest.Some? ==> exists k :: (0 <= k < |nodes| && nodes[k] == rest.value
        && forall j :: 0 <= j < k ==> !(nodes[j].Tagged? && nodes[j].tag == "svg")) by {
        if rest.Some? {
          var k :| 0 <= k < |nodes[1..]| && nodes[1..][k] == rest.value
            && forall j :: 0 <= j < k ==> !(nodes[1..][j].Tagged? && nodes[1..][j].tag == "svg");
          assert nodes[k + 1] == rest.value;
          forall j | 0 <= j < k + 1 ensures !(nodes[j].Tagged? && nodes[j].tag == "svg") {
            if j > 0 { assert nodes[j] == nodes[1..][j - 1]; }
          }
        }
      }
      rest
  }

  /** Every id a selector matches is an element of the page, as it is in a live document. */
  predicate WellFormed(p: Page) {
    forall s, k :: s in p.query && 0 <= k < |p.query[s]| ==> p.query[s][k] in p.elems
  }

  /** `document.querySelectorAll(selector)`. */
  function QueryAll(p: Page, selector: string): seq<Id>
  {
    if selector in p.query then p.query[selector] else []
  }

  /** `document.querySelector(selector)`: the first match, if the page has one. */
  function QueryFirst(p: Page, selector: string): (r: Option<Id>)
    ensures r.Some? ==> r.value in p.elems && r.value in QueryAll(p, selector)
    ensures r.Some? <==> |QueryAll(p, selector)| > 0 && QueryAll(p, selector)[0] in p.elems
    // on a well-formed page the first match is found whenever there is a match
    ensures WellFormed(p) ==> (r.Some? <==> |QueryAll(p, selector)| > 0)
    ensures r.Some? ==> r.value == QueryAll(p, selector)[0]
  {
    var ids := QueryAll(p, selector);
    if |ids| > 0 && ids[0] in p.elems then Some(ids[0]) else None
  }

  /** Replaces one element of the page. */
  function Update(p: Page, id: Id, e: Element): (r: Page)
    requires id in p.elems
    ensures r.elems.Keys == p.elems.Keys && r.query == p.query && r.lang == p.lang
    ensures r.elems[id] == e
    ensures forall j :: j in p.elems && j != id ==> r.elems[j] == p.elems[j]
  {
    p.(elems := p.elems[id := e])
  }
}

=== FILE: i18n.dfy ===
/**
 * The translation binder: resolves the active language, rewrites every
 * element carrying a `data-i18n` key, runs the fixed-selector table, sets the
 * root `lang`, points the résumé link at the right file and keeps the
 * language toggle advertising the other language.
 */
module I18n {
  import opened Wrappers
  import opened JsValue
  import opened KeyPath
  import opened Dom
  import opened I18nTable

  const DefaultLang: string := "pt"
  const I18nAttr: string := "data-i18n"
  const ToggleSelector: string := "#langToggle"
  const ToggleSpanSelector: string := "#langToggle span"
  const CvSelector: string := ".hero__cta--secondary"
  const ProgressLabelSelector: string := ".education__progress-label"
  const CvPathPt: string := "assets/resume/CV_Pedro_Braga_Software_Engineer.pdf"
  const CvPathEn: string := "assets/resume/Resume_Pedro_Braga_Software_Engineer.pdf"

  // ---------------------------------------------------------------------------
  // translateElements
  // ---------------------------------------------------------------------------

  /** The options object of `translateElements`. */
  datatype Options = Options(keepIcon: bool, words: Json, asHtml: bool)

  const NoOptions: Options := Options(false, Undefined, false)

  /** How `translateElements` rewrites one matched element. */
  function Rewrite(e: Element, text: Json, opts: Options): (r: Element)
    // keepIcon with an svg: the text and a space come first and the svg is kept as the last child
    ensures opts.keepIcon && FirstSvg(e.children).Some? ==>
      && r.attrs == e.attrs
      && |r.children| == 2
      && r.children[0] == Markup(Render(text) + " ")
      && r.children[1] == FirstSvg(e.children).value
    // keepIcon without an svg, and the plain mode: the text replaces every child
    ensures (opts.keepIcon && FirstSvg(e.children).None?) || (!opts.keepIcon && !Truthy(opts.words) && !opts.asHtml) ==>
      r.attrs == e.attrs && TextOnly(r) && TextOf(r.children) == Render(text)
    // data-words: only that attribute changes; the children are kept
    ensures !opts.keepIcon && Truthy(opts.words) ==>
      && r.children == e.children
      && "data-words" in r.attrs && r.attrs["data-words"] == Render(opts.words)
      && forall n :: n in e.attrs && n != "data-words" ==> n in r.attrs && r.attrs[n] == e.attrs[n]
    // asHTML: the markup replaces every child
    ensures !opts.keepIcon && !Truthy(opts.words) && opts.asHtml ==>
      r.attrs == e.attrs && (Render(text) != "" ==> r.children == [Markup(Render(text))])
  {
    if opts.keepIcon then
      match FirstSvg(e.children)
      case Some(svg) => e.(children := [Markup(Render(text) + " "), svg])
      case None => SetText(e, Render(text))
    else if Truthy(opts.words) then SetAttr(e, "data-words", Render(opts.words))
    else if opts.asHtml then SetMarkup(e, Render(text))
    else SetText(e, Render(text))
  }

  /**
   * `translateElements(selector, text, options)`: nothing happens unless the
   * text or the word list is truthy; otherwise every match is rewritten and
   * no other element changes.
   */
  function TranslateElements(p: Page, selector: string, text: Json, opts: Options): (r: Page)
    ensures !Truthy(text) && !Truthy(opts.words) ==> r == p
    ensures r.elems.Keys == p.elems.Keys && r.query == p.query && r.lang == p.lang
    ensures forall id :: id in p.elems && id !in QueryAll(p, selector) ==> r.elems[id] == p.elems[id]
    ensures Truthy(text) || Truthy(opts.words) ==>
      forall id :: id in p.elems && id in QueryAll(p, selector) ==> r.elems[id] == Rewrite(p.elems[id], text, opts)
  {
    if !Truthy(text) && !Truthy(opts.words) then p
    else
      var targets := QueryAll(p, selector);
      p.(elems := map id | id in p.elems :: if id in targets then Rewrite(p.elems[id], text, opts) else p.elems[id])
  }

  /** Rewriting an element a second time with the same arguments changes nothing. */
  lemma RewriteIdempotent(e: Element, text: Json, opts: Options)
    ensures Rewrite(Rewrite(e, text, opts), text, opts) == Rewrite(e, text, opts)
  {
    var once := Rewrite(e, text, opts);
    if opts.keepIcon && FirstSvg(e.children).Some? {
      assert FirstSvg(once.children[1..]) == Some(once.children[1]);
    }
  }

  /** Plain text rewrites leave every element's attributes as they were. */
  lemma PlainKeepsAttrs(p: Page, selector: string, text: Json)
    ensures forall id :: id in p.elems ==>
      TranslateElements(p, selector, text, NoOptions).elems[id].attrs == p.elems[id].attrs
  {
  }

  /** `translateElements` applied twice with the same arguments is `translateElements` applied once. */
  lemma TranslateIdempotent(p: Page, selector: string, text: Json, opts: Options)
    ensures TranslateElements(TranslateElements(p, selector, text, opts), selector, text, opts)
         == TranslateElements(p, selector, text, opts)
  {
    var once := TranslateElements(p, selector, text, opts);
    var twice := TranslateElements(once, selector, text, opts);
    if Truthy(text) || Truthy(opts.words) {
      forall id | id in p.elems && id in QueryAll(p, selector)
        ensures twice.elems[id] == once.elems[id]
      {
        RewriteIdempotent(p.elems[id], text, opts);
      }
      assert twice.elems == once.elems;
    }
  }

  /**
   * The modes take precedence in the order keepIcon, data-words, asHTML,
   * plain text, and keepIcon on an element without an svg is plain text.
   */
  lemma ModePrecedence(e: Element, text: Json, words: Json, asHtml: bool)
    ensures Rewrite(e, text, Options(true, words, asHtml)) == Rewrite(e, text, Options(true, Undefined, false))
    ensures Truthy(words) ==>
      Rewrite(e, text, Options(false, words, asHtml)) == Rewrite(e, text, Options(false, words, false))
    ensures FirstSvg(e.children).None? ==>
      Rewrite(e, text, Options(true, words, asHtml)) == Rewrite(e, text, NoOptions)
  {
  }

  // ---------------------------------------------------------------------------
  // Declarative pass over `[data-i18n]`
  // ---------------------------------------------------------------------------

  /** The element holds an icon (`svg`, `i` or `img`) among its children. */
  predicate HasIcon(e: Element) {
    exists i :: 0 <= i < |e.children| && e.children[i].Tagged? && e.children[i].tag in {"svg", "i", "img"}
  }

  /** The value the declarative pass writes into `e`, when `e` carries a key. */
  function DeclValue(e: Element, t: Json): Json
    requires I18nAttr in e.attrs
  {
    ResolveKey(t, e.attrs[I18nAttr])
  }

  /**
   * One element of the declarative pass: a truthy value goes into the
   * `placeholder` attribute when the element has one, and otherwise replaces
   * all of its children, icons included.
   */
  function DeclRewrite(e: Element, t: Json): (r: Element)
    ensures I18nAttr !in e.attrs || !Truthy(DeclValue(e, t)) ==> r == e
    ensures I18nAttr in e.attrs && Truthy(DeclValue(e, t)) && "placeholder" in e.attrs ==>
      r.children == e.children && r.attrs == e.attrs["placeholder" := Render(DeclValue(e, t))]
    ensures I18nAttr in e.attrs && Truthy(DeclValue(e, t)) && "placeholder" !in e.attrs ==>
      r.attrs == e.attrs && TextOnly(r) && !HasIcon(r) && TextOf(r.children) == Render(DeclValue(e, t))
  {
    if I18nAttr !in e.attrs then e
    else
      var val := DeclValue(e, t);
      if !Truthy(val) then e
      else if "placeholder" in e.attrs then SetAttr(e, "placeholder", Render(val))
      else if |e.children| > 0 && HasIcon(e) then SetText(e, Render(val))
      else SetText(e, Render(val))
  }

  /** `document.querySelectorAll('[data-i18n]').forEach(…)`: every element is visited once. */
  function DeclPass(p: Page, t: Json): (r: Page)
    ensures r.elems.Keys == p.elems.Keys && r.query == p.query && r.lang == p.lang
    ensures forall id :: id in p.elems ==> r.elems[id] == DeclRewrite(p.elems[id], t)
  {
    p.(elems := map id | id in p.elems :: DeclRewrite(p.elems[id], t))
  }

  /** The declarative pass keeps every element's key: later passes resolve the same keys. */
  lemma DeclKeepsKeys(e: Element, t: Json)
    ensures I18nAttr in DeclRewrite(e, t).attrs <==> I18nAttr in e.attrs
    ensures I18nAttr in e.attrs ==> DeclRewrite(e, t).attrs[I18nAttr] == e.attrs[I18nAttr]
    ensures ("placeholder" in DeclRewrite(e, t).attrs) == ("placeholder" in e.attrs)
  {
  }

  /**
   * The last truthy writer wins: whatever an earlier pass with dictionary `u`
   * wrote, a pass with `t` leaves the element as if `u` had never run, as
   * long as `t` has a truthy value for the element's key.
   */
  lemma DeclOverrides(e: Element, u: Json, t: Json)
    requires I18nAttr in e.attrs ==> Truthy(DeclValue(e, t))
    ensures DeclRewrite(DeclRewrite(e, u), t) == DeclRewrite(e, t)
  {
    DeclKeepsKeys(e, u);
    var mid := DeclRewrite(e, u);
    if I18nAttr in e.attrs && "placeholder" !in e.attrs {
      assert DeclValue(mid, t) == DeclValue(e, t);
      assert DeclRewrite(mid, t).children == DeclRewrite(e, t).children;
    }
  }

  /** The declarative pass run twice with the same dictionary is the pass run once. */
  lemma DeclPassIdempotent(p: Page, t: Json)
    ensures DeclPass(DeclPass(p, t), t) == DeclPass(p, t)
  {
    var once := DeclPass(p, t);
    forall id | id in p.elems ensures DeclPass(once, t).elems[id] == once.elems[id] {
      var e := p.elems[id];
      if I18nAttr in e.attrs && Truthy(DeclValue(e, t)) {
        DeclOverrides(e, t, t);
      }
    }
    assert DeclPass(once, t).elems == once.elems;
  }

  /**
   * Switching to another dictionary and back restores every element whose key
   * has a truthy value in the dictionary switched back to.
   */
  lemma DeclPassRoundTrip(p: Page, t: Json, u: Json)
    requires forall id :: id in p.elems && I18nAttr in p.elems[id].attrs ==> Truthy(DeclValue(p.elems[id], t))
    ensures DeclPass(DeclPass(DeclPass(p, t), u), t) == DeclPass(p, t)
  {
    var a := DeclPass(p, t);
    var c := DeclPass(DeclPass(a, u), t);
    forall id | id in p.elems ensures c.elems[id] == a.elems[id] {
      var e := p.elems[id];
      DeclKeepsKeys(e, t);
      DeclOverrides(a.elems[id], u, t);
      DeclOverrides(e, t, t);
    }
    assert c.elems == a.elems;
  }

  /**
   * The restriction in `DeclPassRoundTrip` is needed: a key that only the
   * other language translates keeps that language's text after switching back.
   */
  lemma DeclRoundTripNeedsBothValues()
    ensures
      var e := Element([Text("Sobre")], map[I18nAttr := "about"]);
      var pt := Obj(map[]);
      var en := Obj(map["about" := Str("About")]);
      DeclRewrite(DeclRewrite(DeclRewrite(e, pt), en), pt) != DeclRewrite(e, pt)
  {
    var e := Element([Text("Sobre")], map[I18nAttr := "about"]);
    var pt := Obj(map[]);
    var en := Obj(map["about" := Str("About")]);
    SplitNoDot("about");
    assert DeclRewrite(e, pt) == e;
    assert DeclRewrite(e, en).children == [Text("About")];
  }

  // ---------------------------------------------------------------------------
  // Fixed-selector pass
  // ---------------------------------------------------------------------------

  /** `updatePlaceholder(selector, text)`: a truthy text goes into the first match's `placeholder`. */
  function UpdatePlaceholder(p: Page, selector: string, text: Json): (r: Page)
    ensures r.elems.Keys == p.elems.Keys && r.query == p.query && r.lang == p.lang
    ensures !Truthy(text) || QueryFirst(p, selector).None? ==> r == p
    ensures Truthy(text) && QueryFirst(p, selector).Some? ==>
      var id := QueryFirst(p, selector).value;
      && r.elems[id].children == p.elems[id].children
      && r.elems[id].attrs == p.elems[id].attrs["placeholder" := Render(text)]
      && forall j :: j in p.elems && j != id ==> r.elems[j] == p.elems[j]
  {
    if !Truthy(text) then p
    else match QueryFirst(p, selector)
      case None => p
      case Some(id) => Update(p, id, SetAttr(p.elems[id], "placeholder", Render(text)))
  }

  /** The last truthy placeholder wins: what an earlier call wrote does not matter. */
  lemma PlaceholderLastWriterWins(p: Page, selector: string, earlier: Json, later: Json)
    requires Truthy(later)
    ensures UpdatePlaceholder(UpdatePlaceholder(p, selector, earlier), selector, later)
         == UpdatePlaceholder(p, selector, later)
  {
    var mid := UpdatePlaceholder(p, selector, earlier);
    assert QueryFirst(mid, selector) == QueryFirst(p, selector);
    if QueryFirst(p, selector).Some? {
      var id := QueryFirst(p, selector).value;
      var a := UpdatePlaceholder(mid, selector, later);
      var b := UpdatePlaceholder(p, selector, later);
      assert a.elems[id] == b.elems[id];
      assert a.elems == b.elems;
    }
  }

  /** One statement of the fixed-selector table, with the value `t.<section>.<leaf>` it looks up. */
  function ApplyStep(p: Page, t: Json, step: Step): (r: Page)
    ensures r.elems.Keys == p.elems.Keys && r.query == p.query && r.lang == p.lang
    ensures forall id :: id in p.elems && id !in QueryAll(p, step.selector) ==> r.elems[id] == p.elems[id]
  {
    var value := Resolve(t, [step.section, step.leaf]);
    match step.mode
    case Plain => TranslateElements(p, step.selector, value, NoOptions)
    case KeepIcon => TranslateElements(p, step.selector, value, Options(true, Undefined, false))
    case AsHtml => TranslateElements(p, step.selector, value, Options(false, Undefined, true))
    case Words => TranslateElements(p, step.selector, Null, Options(false, value, false))
    case FirstPlaceholder => UpdatePlaceholder(p, step.selector, value)
  }

  /** No statement of `steps` selects the element. */
  predicate Untargeted(p: Page, steps: seq<Step>, id: Id) {
    forall i :: 0 <= i < |steps| ==> id !in QueryAll(p, steps[i].selector)
  }

  /** The table's statements in order; an element no statement selects is left as it was. */
  function RunSteps(p: Page, t: Json, steps: seq<Step>): (r: Page)
    ensures r.elems.Keys == p.elems.Keys && r.query == p.query && r.lang == p.lang
    ensures forall id :: id in p.elems && Untargeted(p, steps, id) ==> r.elems[id] == p.elems[id]
    decreases |steps|
  {
    if |steps| == 0 then p
    else
      var next := ApplyStep(p, t, steps[0]);
      assert forall id :: Untargeted(p, steps, id) ==> Untargeted(next, steps[1..], id) by {
        forall id | Untargeted(p, steps, id) ensures Untargeted(next, steps[1..], id) {
          forall i | 0 <= i < |steps[1..]| ensures id !in QueryAll(next, steps[1..][i].selector) {
            assert steps[1..][i] == steps[i + 1];
          }
        }
      }
      RunSteps(next, t, steps[1..])
  }

  /** A statement whose dictionary entry is missing or falsy leaves the page as it was, whatever its mode. */
  lemma MissingEntryIsNoOp(p: Page, t: Json, step: Step)
    requires !Truthy(Resolve(t, [step.section, step.leaf]))
    ensures ApplyStep(p, t, step) == p
  {
  }

  /** A table none of whose entries the dictionary provides changes nothing. */
  lemma {:induction false} MissingEntriesAreNoOps(p: Page, t: Json, steps: seq<Step>)
    requires forall i :: 0 <= i < |steps| ==> !Truthy(Resolve(t, [steps[i].section, steps[i].leaf]))
    ensures RunSteps(p, t, steps) == p
    decreases |steps|
  {
    if |steps| > 0 {
      MissingEntryIsNoOp(p, t, steps[0]);
      assert forall i :: 0 <= i < |steps[1..]| ==> steps[1..][i] == steps[i + 1];
      MissingEntriesAreNoOps(p, t, steps[1..]);
    }
  }

  /**
   * No section the table dereferences is `undefined` or `null`, the only
   * values on which `t.<section>.<leaf>` throws; any other value yields a
   * member or `undefined`.
   */
  predicate SectionsPresent(t: Json) {
    forall s :: s in Sections ==> Member(t, s) != Undefined && Member(t, s) != Null
  }

  /** The dictionary either has no entry for `lang` (a no-op) or has every section as an object. */
  predicate LanguageUsable(dict: Json, lang: string) {
    Truthy(Member(dict, lang)) ==> SectionsPresent(Member(dict, lang))
  }

  // ---------------------------------------------------------------------------
  // Résumé link, root language, updateLanguage
  // ---------------------------------------------------------------------------

  /** The résumé file for a language: the Portuguese CV exactly for `pt`, the English résumé otherwise. */
  function CvPath(lang: string): (path: string)
    ensures path == CvPathPt <==> lang == "pt"
    ensures path == CvPathEn <==> lang != "pt"
  {
    if lang == "pt" then CvPathPt else CvPathEn
  }

  /** `updateCVLink(lang)`: the first `.hero__cta--secondary` links to the language's file. */
  function UpdateCvLink(p: Page, lang: string): (r: Page)
    ensures r.elems.Keys == p.elems.Keys && r.query == p.query && r.lang == p.lang
    ensures QueryFirst(p, CvSelector).None? ==> r == p
    ensures QueryFirst(p, CvSelector).Some? ==>
      var id := QueryFirst(p, CvSelector).value;
      && r.elems[id].children == p.elems[id].children
      && r.elems[id].attrs == p.elems[id].attrs["href" := CvPath(lang)]
      && forall j :: j in p.elems && j != id ==> r.elems[j] == p.elems[j]
  {
    match QueryFirst(p, CvSelector)
    case None => p
    case Some(id) => Update(p, id, SetAttr(p.elems[id], "href", CvPath(lang)))
  }

  /** The link depends only on the latest language: switching to `a`, then `b`, is switching to `b`. */
  lemma CvLinkLastWriterWins(p: Page, a: string, b: string)
    ensures UpdateCvLink(UpdateCvLink(p, a), b) == UpdateCvLink(p, b)
  {
    var mid := UpdateCvLink(p, a);
    assert QueryFirst(mid, CvSelector) == QueryFirst(p, CvSelector);
    if QueryFirst(p, CvSelector).Some? {
      var id := QueryFirst(p, CvSelector).value;
      assert UpdateCvLink(mid, b).elems[id] == UpdateCvLink(p, b).elems[id];
      assert UpdateCvLink(mid, b).elems == UpdateCvLink(p, b).elems;
    }
  }

  /** Switching the link to another language and back restores it. */
  lemma CvLinkRoundTrip(p: Page, a: string, b: string)
    ensures UpdateCvLink(UpdateCvLink(UpdateCvLink(p, a), b), a) == UpdateCvLink(p, a)
  {
    CvLinkLastWriterWins(UpdateCvLink(p, a), b, a);
    CvLinkLastWriterWins(p, a, a);
  }

  /** The dictionary is loaded and has a truthy entry for `lang`: the guard of `updateLanguage` passes. */
  predicate Loaded(dict: Option<Json>, lang: string) {
    dict.Some? && Truthy(Member(dict.value, lang))
  }

  /**
   * `updateLanguage(lang)`: the declarative pass, the fixed-selector table
   * (the binder passes `FixedTable`), the root `lang`, the résumé link, and
   * the progress label once more. Without a loaded dictionary entry for
   * `lang` nothing changes.
   */
  function UpdateLanguage(p: Page, dict: Option<Json>, lang: string, table: seq<Step>): (r: Page)
    requires dict.Some? ==> LanguageUsable(dict.value, lang)
    ensures !Loaded(dict, lang) ==> r == p
    ensures Loaded(dict, lang) ==> r.lang == lang
    ensures r.elems.Keys == p.elems.Keys && r.query == p.query
    ensures Loaded(dict, lang) && QueryFirst(p, CvSelector).Some? ==>
      var id := QueryFirst(p, CvSelector).value;
      "href" in r.elems[id].attrs && r.elems[id].attrs["href"] == CvPath(lang)
  {
    if !Loaded(dict, lang) then p
    else
      var t := Member(dict.value, lang);
      var declared := DeclPass(p, t);
      var tabled := RunSteps(declared, t, table);
      var linked := UpdateCvLink(tabled.(lang := lang), lang);
      var progressText := Resolve(t, ["education", "progress_label"]);
      assert QueryFirst(linked, CvSelector) == QueryFirst(p, CvSelector);
      PlainKeepsAttrs(linked, ProgressLabelSelector, progressText);
      TranslateElements(linked, ProgressLabelSelector, progressText, NoOptions)
  }

  /**
   * `updateLanguage` as the site runs it, with its own fixed-selector table.
   * `LanguageUsable` is the right precondition for this table because the
   * table dereferences only the ten `Sections` (`TableReadsSections`).
   */
  function SiteUpdateLanguage(p: Page, dict: Option<Json>, lang: string): (r: Page)
    requires dict.Some? ==> LanguageUsable(dict.value, lang)
    ensures !Loaded(dict, lang) ==> r == p
    ensures Loaded(dict, lang) ==> r.lang == lang
    ensures r.elems.Keys == p.elems.Keys && r.query == p.query
    ensures forall id :: Bystander(p, FixedTable, id) ==> r.elems[id] == p.elems[id]
  {
    UpdateLanguageLeavesAllBystanders(p, dict, lang, FixedTable);
    UpdateLanguage(p, dict, lang, FixedTable)
  }

  /** `UpdateLanguageLeavesBystanders` for every element at once. */
  lemma UpdateLanguageLeavesAllBystanders(p: Page, dict: Option<Json>, lang: string, table: seq<Step>)
    requires dict.Some? ==> LanguageUsable(dict.value, lang)
    ensures forall id :: Bystander(p, table, id) ==> UpdateLanguage(p, dict, lang, table).elems[id] == p.elems[id]
  {
    forall id | Bystander(p, table, id) {
      UpdateLanguageLeavesBystanders(p, dict, lang, table, id);
    }
  }

  /** No table statement, résumé link or progress label selects the element. */
  predicate Unselected(p: Page, table: seq<Step>, id: Id) {
    id in p.elems && Untargeted(p, table, id)
    && id !in QueryAll(p, CvSelector) && id !in QueryAll(p, ProgressLabelSelector)
  }

  /** An unselected element without a `data-i18n` key: nothing in `updateLanguage` addresses it. */
  predicate Bystander(p: Page, table: seq<Step>, id: Id) {
    Unselected(p, table, id) && I18nAttr !in p.elems[id].attrs
  }

  /** An unselected element receives exactly what the declarative pass writes into it. */
  lemma UpdateLanguageOnUnselected(p: Page, dict: Option<Json>, lang: string, table: seq<Step>, id: Id)
    requires dict.Some? ==> LanguageUsable(dict.value, lang)
    requires Loaded(dict, lang) && Unselected(p, table, id)
    ensures UpdateLanguage(p, dict, lang, table).elems[id] == DeclRewrite(p.elems[id], Member(dict.value, lang))
  {
    var t := Member(dict.value, lang);
    var declared := DeclPass(p, t);
    assert Untargeted(declared, table, id);
    var tabled := RunSteps(declared, t, table);
    assert tabled.elems[id] == declared.elems[id];
    var linked := UpdateCvLink(tabled.(lang := lang), lang);
    assert linked.elems[id] == declared.elems[id];
  }

  /** `updateLanguage` leaves every bystander element exactly as it was. */
  lemma UpdateLanguageLeavesBystanders(p: Page, dict: Option<Json>, lang: string, table: seq<Step>, id: Id)
    requires dict.Some? ==> LanguageUsable(dict.value, lang)
    requires Bystander(p, table, id)
    ensures UpdateLanguage(p, dict, lang, table).elems[id] == p.elems[id]
  {
    if Loaded(dict, lang) {
      UpdateLanguageOnUnselected(p, dict, lang, table, id);
    }
  }

  /** Selection depends only on the page's queries and element set, which `updateLanguage` keeps. */
  lemma UnselectedKept(p: Page, q: Page, table: seq<Step>, id: Id)
    requires Unselected(p, table, id)
    requires q.query == p.query && q.elems.Keys == p.elems.Keys
    ensures Unselected(q, table, id)
  {
    assert forall sel :: QueryAll(q, sel) == QueryAll(p, sel);
  }

  /** The element-level round trip: `a`, then `b`, then `a` again is `a` alone. */
  lemma DeclRoundTrip(e: Element, ta: Json, tb: Json)
    requires I18nAttr in e.attrs ==> Truthy(DeclValue(e, ta))
    ensures DeclRewrite(DeclRewrite(e, ta), ta) == DeclRewrite(e, ta)
    ensures DeclRewrite(DeclRewrite(DeclRewrite(e, ta), tb), ta) == DeclRewrite(e, ta)
  {
    DeclKeepsKeys(e, ta);
    DeclOverrides(DeclRewrite(e, ta), tb, ta);
    DeclOverrides(e, ta, ta);
  }

  /**
   * The language round trip through `updateLanguage` itself: switching to
   * `a`, then to `b`, then back to `a` leaves an unselected element as the
   * first switch left it, when its key has a truthy value in `a`.
   */
  lemma UpdateLanguageRoundTrip(p: Page, dict: Option<Json>, a: string, b: string, table: seq<Step>, id: Id)
    requires dict.Some? && LanguageUsable(dict.value, a) && LanguageUsable(dict.value, b)
    requires Loaded(dict, a) && Unselected(p, table, id)
    requires I18nAttr in p.elems[id].attrs ==> Truthy(DeclValue(p.elems[id], Member(dict.value, a)))
    ensures
      var first := UpdateLanguage(p, dict, a, table);
      UpdateLanguage(UpdateLanguage(first, dict, b, table), dict, a, table).elems[id] == first.elems[id]
  {
    var ta := Member(dict.value, a);
    var tb := Member(dict.value, b);
    var e := p.elems[id];
    DeclRoundTrip(e, ta, tb);
    var first := UpdateLanguage(p, dict, a, table);
    UpdateLanguageOnUnselected(p, dict, a, table, id);
    UnselectedKept(p, first, table, id);
    var second := UpdateLanguage(first, dict, b, table);
    UnselectedKept(first, second, table, id);
    UpdateLanguageOnUnselected(second, dict, a, table, id);
    if Loaded(dict, b) {
      UpdateLanguageOnUnselected(first, dict, b, table, id);
      assert second.elems[id] == DeclRewrite(DeclRewrite(e, ta), tb);
    } else {
      assert second == first;
    }
  }

  // ---------------------------------------------------------------------------
  // Language state and the toggle
  // ---------------------------------------------------------------------------

  /** `localStorage.getItem(STORAGE_KEY) || DEFAULT_LANG`: a stored non-empty code, else `pt`. */
  function InitialLang(stored: Option<string>): (lang: string)
    ensures stored.Some? && stored.value != "" ==> lang == stored.value
    ensures stored.None? || stored.value == "" ==> lang == DefaultLang
    ensures lang != ""
  {
    if stored.Some? && stored.value != "" then stored.value else DefaultLang
  }

  /** The toggle's step: `pt` goes to `en`, every other code to `pt`. */
  function Flip(lang: string): (next: string)
    ensures next != lang
    ensures next == "en" <==> lang == "pt"
    ensures next == "pt" || next == "en"
  {
    if lang == "pt" then "en" else "pt"
  }

  /** The toggle's visible label for the active language. */
  function ToggleLabel(lang: string): string {
    if lang == "pt" then "EN" else "PT"
  }

  /** The toggle's `aria-label` for the active language. */
  function ToggleAria(lang: string): string {
    if lang == "pt" then "Switch to English" else "Mudar para Português"
  }

  /** The short code shown for a language the toggle can switch to. */
  function CodeLabel(lang: string): string
    requires lang == "pt" || lang == "en"
  {
    if lang == "en" then "EN" else "PT"
  }

  /** The invitation, written in the target language, to switch to it. */
  function SwitchPrompt(lang: string): string
    requires lang == "pt" || lang == "en"
  {
    if lang == "en" then "Switch to English" else "Mudar para Português"
  }

  /** The toggle always advertises the language a click switches to, never the active one. */
  lemma ToggleAdvertisesTarget(lang: string)
    ensures ToggleLabel(lang) == CodeLabel(Flip(lang))
    ensures ToggleAria(lang) == SwitchPrompt(Flip(lang))
    ensures lang == "pt" || lang == "en" ==> ToggleLabel(lang) != CodeLabel(lang)
  {
  }

  /** The element is the language toggle or the span inside it. */
  predicate ToggleOrSpan(p: Page, id: Id) {
    QueryFirst(p, ToggleSelector) == Some(id) || QueryFirst(p, ToggleSpanSelector) == Some(id)
  }

  /** `updateToggleText(toggle)`: the span inside the toggle shows the label, the toggle gets the aria text. */
  function UpdateToggleText(p: Page, lang: string): (r: Page)
    ensures r.elems.Keys == p.elems.Keys && r.query == p.query && r.lang == p.lang
    ensures QueryFirst(p, ToggleSelector).Some? ==>
      var id := QueryFirst(p, ToggleSelector).value;
      "aria-label" in r.elems[id].attrs && r.elems[id].attrs["aria-label"] == ToggleAria(lang)
    ensures QueryFirst(p, ToggleSelector).Some? && QueryFirst(p, ToggleSpanSelector).Some? ==>
      TextOf(r.elems[QueryFirst(p, ToggleSpanSelector).value].children) == ToggleLabel(lang)
    // the toggle gains only its aria text; its children change only when it is its own span
    ensures QueryFirst(p, ToggleSelector).Some? ==>
      var t := QueryFirst(p, ToggleSelector).value;
      && r.elems[t].attrs == p.elems[t].attrs["aria-label" := ToggleAria(lang)]
      && (QueryFirst(p, ToggleSpanSelector) != Some(t) ==> r.elems[t].children == p.elems[t].children)
    // the span's attributes are kept
    ensures QueryFirst(p, ToggleSpanSelector).Some? && QueryFirst(p, ToggleSpanSelector) != QueryFirst(p, ToggleSelector) ==>
      var sp := QueryFirst(p, ToggleSpanSelector).value;
      r.elems[sp].attrs == p.elems[sp].attrs
    ensures QueryFirst(p, ToggleSelector).None? ==> r == p
    // nothing but the toggle and its span changes
    ensures forall j :: j in p.elems && !ToggleOrSpan(p, j) ==> r.elems[j] == p.elems[j]
  {
    match QueryFirst(p, ToggleSelector)
    case None => p
    case Some(toggle) =>
      var labelled := match QueryFirst(p, ToggleSpanSelector)
        case None => p
        case Some(span) => Update(p, span, SetText(p.elems[span], ToggleLabel(lang)));
      Update(labelled, toggle, SetAttr(labelled.elems[toggle], "aria-label", ToggleAria(lang)))
  }

  /** The attributes `updateLanguage` writes: `placeholder`, `data-words` and the résumé link's `href`. */
  predicate WrittenByUpdate(name: string) {
    name == "placeholder" || name == "data-words" || name == "href"
  }

  /** Element `id` carries attribute `name` in `r` with the value it had in `p`, if it had one. */
  predicate AttrKept(p: Page, r: Page, id: Id, name: string) {
    id in p.elems && name in p.elems[id].attrs ==>
      id in r.elems && name in r.elems[id].attrs && r.elems[id].attrs[name] == p.elems[id].attrs[name]
  }

  /** One table statement writes no attribute other than `placeholder` or `data-words`. */
  lemma ApplyStepKeepsAttr(p: Page, t: Json, step: Step, id: Id, name: string)
    requires !WrittenByUpdate(name)
    ensures AttrKept(p, ApplyStep(p, t, step), id, name)
  {
    if id in p.elems && id in QueryAll(p, step.selector) {
      var value := Resolve(t, [step.section, step.leaf]);
      if step.mode == FirstPlaceholder && Truthy(value) && QueryFirst(p, step.selector) == Some(id) {
        assert ApplyStep(p, t, step).elems[id].attrs == p.elems[id].attrs["placeholder" := Render(value)];
      }
    }
  }

  /** The whole table keeps every attribute other than `placeholder` and `data-words`. */
  lemma {:induction false} RunStepsKeepsAttr(p: Page, t: Json, steps: seq<Step>, id: Id, name: string)
    requires !WrittenByUpdate(name)
    ensures AttrKept(p, RunSteps(p, t, steps), id, name)
    decreases |steps|
  {
    if |steps| > 0 {
      var next := ApplyStep(p, t, steps[0]);
      ApplyStepKeepsAttr(p, t, steps[0], id, name);
      RunStepsKeepsAttr(next, t, steps[1..], id, name);
    }
  }

  /**
   * `updateLanguage` keeps every attribute it does not write; in particular
   * the toggle's `aria-label`, which `setupToggle` writes first, survives it.
   */
  lemma UpdateLanguageKeepsAttr(p: Page, dict: Option<Json>, lang: string, table: seq<Step>, id: Id, name: string)
    requires dict.Some? ==> LanguageUsable(dict.value, lang)
    requires !WrittenByUpdate(name)
    ensures AttrKept(p, UpdateLanguage(p, dict, lang, table), id, name)
  {
    if Loaded(dict, lang) && id in p.elems && name in p.elems[id].attrs {
      var t := Member(dict.value, lang);
      var declared := DeclPass(p, t);
      assert AttrKept(p, declared, id, name);
      var tabled := RunSteps(declared, t, table);
      RunStepsKeepsAttr(declared, t, table, id, name);
      var linked := UpdateCvLink(tabled.(lang := lang), lang);
      assert AttrKept(tabled, linked, id, name);
      var progressText := Resolve(t, ["education", "progress_label"]);
      PlainKeepsAttrs(linked, ProgressLabelSelector, progressText);
    }
  }

  /** The binder's state: the page, the loaded dictionary, the active language and the stored preference. */
  datatype Session = Session(page: Page, dict: Option<Json>, lang: string, stored: Option<string>)

  /**
   * `init()`: without a dictionary nothing changes and the language stays
   * `pt`; with one, the language comes from storage (nothing is stored yet),
   * the toggle is labelled and the page translated.
   */
  function Init(p: Page, fetched: Option<Json>, stored: Option<string>, table: seq<Step>): (s: Session)
    requires fetched.Some? ==> LanguageUsable(fetched.value, InitialLang(stored))
    ensures fetched.None? ==> s == Session(p, None, DefaultLang, stored)
    ensures fetched.Some? ==> s.dict == fetched && s.lang == InitialLang(stored) && s.stored == stored
    ensures Loaded(fetched, s.lang) ==> s.page.lang == s.lang
    ensures s.page.elems.Keys == p.elems.Keys && s.page.query == p.query
    // the toggle advertises the other language from start-up on
    ensures fetched.Some? && QueryFirst(p, ToggleSelector).Some? ==>
      var t := QueryFirst(p, ToggleSelector).value;
      "aria-label" in s.page.elems[t].attrs && s.page.elems[t].attrs["aria-label"] == ToggleAria(s.lang)
  {
    match fetched
    case None => Session(p, None, DefaultLang, stored)
    case Some(dict) =>
      var lang := InitialLang(stored);
      var labelled := UpdateToggleText(p, lang);
      assert QueryFirst(labelled, ToggleSelector) == QueryFirst(p, ToggleSelector);
      UpdateLanguageKeepsAttr(labelled, fetched, lang, table, QueryFirst(p, ToggleSelector).GetOr(0), "aria-label");
      Session(UpdateLanguage(labelled, fetched, lang, table), fetched, lang, stored)
  }

  /**
   * The toggle's click handler (wired only after a dictionary was fetched and
   * when the toggle exists): flip the language, store it, translate, relabel.
   */
  function ToggleClick(s: Session, table: seq<Step>): (r: Session)
    requires s.dict.Some? && QueryFirst(s.page, ToggleSelector).Some?
    requires LanguageUsable(s.dict.value, Flip(s.lang))
    ensures r.lang == Flip(s.lang) && r.stored == Some(r.lang) && r.dict == s.dict
    ensures r.page.elems.Keys == s.page.elems.Keys && r.page.query == s.page.query
    ensures Loaded(s.dict, r.lang) ==> r.page.lang == r.lang
    ensures
      var id := QueryFirst(s.page, ToggleSelector).value;
      "aria-label" in r.page.elems[id].attrs && r.page.elems[id].attrs["aria-label"] == ToggleAria(r.lang)
    ensures QueryFirst(s.page, ToggleSpanSelector).Some? ==>
      TextOf(r.page.elems[QueryFirst(s.page, ToggleSpanSelector).value].children) == ToggleLabel(r.lang)
    // the toggle's attributes are the translated ones plus the aria text
    ensures
      var id := QueryFirst(s.page, ToggleSelector).value;
      r.page.elems[id].attrs == UpdateLanguage(s.page, s.dict, r.lang, table).elems[id].attrs["aria-label" := ToggleAria(r.lang)]
    ensures
      var id := QueryFirst(s.page, ToggleSelector).value;
      QueryFirst(s.page, ToggleSpanSelector) != Some(id) ==>
      r.page.elems[id].children == UpdateLanguage(s.page, s.dict, r.lang, table).elems[id].children
    ensures QueryFirst(s.page, ToggleSpanSelector).Some? && QueryFirst(s.page, ToggleSpanSelector) != QueryFirst(s.page, ToggleSelector) ==>
      var sp := QueryFirst(s.page, ToggleSpanSelector).value;
      r.page.elems[sp].attrs == UpdateLanguage(s.page, s.dict, r.lang, table).elems[sp].attrs
    // apart from the toggle and its span, the page is the translated page
    ensures forall j :: j in s.page.elems && !ToggleOrSpan(s.page, j) ==>
      r.page.elems[j] == UpdateLanguage(s.page, s.dict, r.lang, table).elems[j]
  {
    var lang := Flip(s.lang);
    var translated := UpdateLanguage(s.page, s.dict, lang, table);
    assert translated.query == s.page.query && translated.elems.Keys == s.page.elems.Keys;
    assert QueryFirst(translated, ToggleSelector) == QueryFirst(s.page, ToggleSelector);
    assert QueryFirst(translated, ToggleSpanSelector) == QueryFirst(s.page, ToggleSpanSelector);
    var relabelled := UpdateToggleText(translated, lang);
    assert relabelled.lang == translated.lang;
    Session(relabelled, s.dict, lang, Some(lang))
  }

  /** Two clicks from `pt` or `en` restore the language, and storage then holds it. */
  lemma ToggleTwiceRestoresLanguage(s: Session, table: seq<Step>)
    requires s.lang == "pt" || s.lang == "en"
    requires s.dict.Some? && QueryFirst(s.page, ToggleSelector).Some?
    requires LanguageUsable(s.dict.value, "pt") && LanguageUsable(s.dict.value, "en")
    ensures
      var once := ToggleClick(s, table);
      QueryFirst(once.page, ToggleSelector).Some? &&
      var twice := ToggleClick(once, table);
      twice.lang == s.lang && twice.stored == Some(s.lang)
  {
    var once := ToggleClick(s, table);
    assert QueryFirst(once.page, ToggleSelector) == QueryFirst(s.page, ToggleSelector);
  }

  /**
   * A click survives a reload: the stored choice is what `init` picks up,
   * so the page comes back in the language the click switched to.
   */
  lemma ToggleSurvivesReload(s: Session, table: seq<Step>, p: Page, fetched: Option<Json>)
    requires s.dict.Some? && QueryFirst(s.page, ToggleSelector).Some?
    requires LanguageUsable(s.dict.value, Flip(s.lang))
    requires fetched.Some? && LanguageUsable(fetched.value, Flip(s.lang))
    ensures InitialLang(ToggleClick(s, table).stored) == ToggleClick(s, table).lang
    ensures Init(p, fetched, ToggleClick(s, table).stored, table).lang == ToggleClick(s, table).lang
  {
  }
}

=== FILE: i18n_table.dfy ===
/**
 * The translation binder's fixed-selector pass, written as data: each row
 * names a selector, the dictionary entry `t.<section>.<leaf>` and how the
 * value is written. The order is the order of the statements in
 * `updateLanguage`.
 */
module I18nTable {

  /** How a value is written: the options object each `translateElements` call passes, or `updatePlaceholder`. */
  datatype Mode =
    | Plain             // translateElements(selector, value)
    | KeepIcon          // translateElements(selector, value, { keepIcon: true })
    | AsHtml            // translateElements(selector, value, { asHTML: true })
    | Words             // translateElements(selector, null, { 'data-words': value })
    | FirstPlaceholder  // updatePlaceholder(selector, value)

  datatype Step = Step(selector: string, section: string, leaf: string, mode: Mode)

  /** A row of one section's block, before the section name is attached. */
  datatype Row = Row(selector: string, leaf: string, mode: Mode)

  /** The dictionary sections the table dereferences. */
  const Sections: set<string> :=
    {"nav", "hero", "about", "services", "skills", "projects", "education", "testimonials", "contact", "footer"}

  /** Every step reads its value from one of the sections in `s`. */
  predicate ReadsOnly(steps: seq<Step>, s: set<string>) {
    forall i :: 0 <= i < |steps| ==> steps[i].section in s
  }

  /** One section's block of statements. */
  function Block(section: string, rows: seq<Row>): (steps: seq<Step>)
    ensures |steps| == |rows|
    ensures ReadsOnly(steps, {section})
    ensures forall i :: 0 <= i < |rows| ==>
      steps[i] == Step(rows[i].selector, section, rows[i].leaf, rows[i].mode)
  {
    seq(|rows|, i requires 0 <= i < |rows| => Step(rows[i].selector, section, rows[i].leaf, rows[i].mode))
  }
  const NavRows: seq<Row> := [
    Row(".nav__link[href=\"#about\"]", "about", Plain),
    Row(".nav__link[href=\"#servicos\"]", "solutions", Plain),
    Row(".nav__link[href=\"#skills\"]", "skills", Plain),
    Row(".nav__link[href=\"#projects\"]", "projects", Plain),
    Row(".nav__link[href=\"#education\"]", "education", Plain),
    Row(".nav__link[href=\"#blog\"]", "blog", Plain),
    Row(".nav__link[href=\"#contact\"]", "contact", Plain)
  ]
  const HeroRows: seq<Row> := [
    Row(".hero__badge span", "badge", Plain),
    Row(".hero .section-label", "greeting", Plain),
    Row(".hero__title .txt-type", "role", Words),
    Row(".hero__subtitle", "description", Plain),
    Row(".hero__cta:not(.hero__cta--secondary)", "cta_projects", KeepIcon),
    Row(".hero__cta--secondary", "cta_cv", KeepIcon)
  ]
  const AboutRows: seq<Row> := [
    Row("#about .section-label", "label", Plain),
    Row("#about .section-title", "title", Plain),
    Row("#about .about__text:nth-of-type(1)", "text1", AsHtml),
    Row("#about .about__text:nth-of-type(2)", "text2", AsHtml),
    Row("#about .about__text:nth-of-type(3)", "text3", AsHtml)
  ]
  const ServicesRows: seq<Row> := [
    Row("#servicos .section-label", "label", Plain),
    Row("#servicos .section-title", "title", Plain),
    Row(".services__cta-wrapper .btn", "cta", Plain),
    Row(".service-card:nth-child(1) .service-card__title", "card1_title", Plain),
    Row(".service-card:nth-child(1) .service-card__description", "card1_desc", Plain),
    Row(".service-card:nth-child(2) .service-card__title", "card2_title", Plain),
    Row(".service-card:nth-child(2) .service-card__description", "card2_desc", Plain),
    Row(".service-card:nth-child(3) .service-card__title", "card3_title", Plain),
    Row(".service-card:nth-child(3) .service-card__description", "card3_desc", Plain)
  ]
  const SkillsRows: seq<Row> := [
    Row("#skills .section-label", "label", Plain),
    Row("#skills .section-title", "title", Plain)
  ]
  const ProjectsRows: seq<Row> := [
    Row("#projects .section-label", "label", Plain),
    Row("#projects .section-title", "title", Plain),
    Row(".project-card__cta", "view_case", Plain),
    Row(".project-card__btn--primary", "btn_site", KeepIcon),
    Row(".project-card__btn--secondary", "btn_code", KeepIcon)
  ]
  const EducationRows: seq<Row> := [
    Row("#education .section-label", "label", Plain),
    Row("#education .section-title", "title", Plain),
    Row(".education__item--degree h3", "degree_title", Plain),
    Row(".education__university", "degree_university", Plain),
    Row(".education__detail-expected span", "degree_expected", Plain),
    Row(".education__detail-semester span", "degree_semester", Plain),
    Row(".education__focus-title", "degree_focus", Plain),
    Row(".education__progress-label", "progress_label", Plain),
    Row(".education__item--credentials h3", "certs_title", Plain)
  ]
  const TestimonialsRows: seq<Row> := [
    Row("#testimonials .section-label", "label", Plain),
    Row("#testimonials .section-title", "title", Plain)
  ]
  const ContactRows: seq<Row> := [
    Row("#contact .section-label", "label", Plain),
    Row("#contact .section-title", "title", Plain),
    Row(".contact__subtitle", "subtitle", Plain),
    Row(".contact__label[for=\"name\"]", "name", Plain),
    Row(".contact__label[for=\"email\"]", "email", Plain),
    Row(".contact__label[for=\"subject\"]", "subject", Plain),
    Row(".contact__label[for=\"message\"]", "message", Plain),
    Row(".contact__submit", "submit", Plain),
    Row("#name", "name_placeholder", FirstPlaceholder),
    Row("#email", "email_placeholder", FirstPlaceholder),
    Row("#subject", "subject_placeholder", FirstPlaceholder),
    Row("#message", "message_placeholder", FirstPlaceholder)
  ]
  const FooterRows: seq<Row> := [
    Row(".footer__bottom p:first-child", "developed", Plain)
  ]
  const FixedTable: seq<Step> :=
    Block("nav", NavRows)
    + Block("hero", HeroRows)
    + Block("about", AboutRows)
    + Block("services", ServicesRows)
    + Block("skills", SkillsRows)
    + Block("projects", ProjectsRows)
    + Block("education", EducationRows)
    + Block("testimonials", TestimonialsRows)
    + Block("contact", ContactRows)
    + Block("footer", FooterRows)

  /** Reading only from sections in `s` is kept by concatenation. */
  lemma ReadsOnlyConcat(a: seq<Step>, b: seq<Step>, s: set<string>)
    requires ReadsOnly(a, s) && ReadsOnly(b, s)
    ensures ReadsOnly(a + b, s)
  {
    forall i | 0 <= i < |a + b| ensures (a + b)[i].section in s {
      if i >= |a| {
        assert (a + b)[i] == b[i - |a|];
      }
    }
  }

  /** A block of a listed section reads only listed sections. */
  lemma BlockReadsSections(section: string, rows: seq<Row>)
    requires section in Sections
    ensures ReadsOnly(Block(section, rows), Sections)
  {
  }

  /** Every statement of the table reads one of `Sections`, so requiring those sections covers the whole table. */
  lemma TableReadsSections()
    ensures ReadsOnly(FixedTable, Sections)
  {
    var nav := Block("nav", NavRows);
    BlockReadsSections("nav", NavRows);
    var hero := Block("hero", HeroRows);
    BlockReadsSections("hero", HeroRows);
    var about := Block("about", AboutRows);
    BlockReadsSections("about", AboutRows);
    var services := Block("services", ServicesRows);
    BlockReadsSections("services", ServicesRows);
    var skills := Block("skills", SkillsRows);
    BlockReadsSections("skills", SkillsRows);
    var projects := Block("projects", ProjectsRows);
    BlockReadsSections("projects", ProjectsRows);
    var education := Block("education", EducationRows);
    BlockReadsSections("education", EducationRows);
    var testimonials := Block("testimonials", TestimonialsRows);
    BlockReadsSections("testimonials", TestimonialsRows);
    var contact := Block("contact", ContactRows);
    BlockReadsSections("contact", ContactRows);
    var footer := Block("footer", FooterRows);
    BlockReadsSections("footer", FooterRows);
    ReadsOnlyConcat(nav, hero, Sections);
    ReadsOnlyConcat(nav + hero, about, Sections);
    ReadsOnlyConcat(nav + hero + about, services, Sections);
    ReadsOnlyConcat(nav + hero + about + services, skills, Sections);
    ReadsOnlyConcat(nav + hero + about + services + skills, projects, Sections);
    ReadsOnlyConcat(nav + hero + about + services + skills + projects, education, Sections);
    ReadsOnlyConcat(nav + hero + about + services + skills + projects + education, testimonials, Sections);
    ReadsOnlyConcat(nav + hero + about + services + skills + projects + education + testimonials, contact, Sections);
    ReadsOnlyConcat(nav + hero + about + services + skills + projects + education + testimonials + contact, footer, Sections);
    assert FixedTable == nav + hero + about + services + skills + projects + education + testimonials + contact + footer;
  }
}

=== FILE: js_string.dfy ===
/** `String.prototype.trim` as the page uses it: to decide whether a string is blank. */
module JsString {

  /**
   * The characters ECMAScript's trim removes: the WhiteSpace and
   * LineTerminator productions (section 12.2 and 12.3 of ECMA-262).
   */
  predicate IsJsSpace(c: char) {
    || '\U{9}' <= c <= '\U{D}'
    || c == ' ' || c == '\U{A0}' || c == '\U{1680}'
    || '\U{2000}' <= c <= '\U{200A}'
    || c == '\U{2028}' || c == '\U{2029}' || c == '\U{202F}' || c == '\U{205F}'
    || c == '\U{3000}' || c == '\U{FEFF}'
  }

  /** Every character of `s` is white space (the empty string included). */
  predicate IsBlank(s: string) {
    forall i :: 0 <= i < |s| ==> IsJsSpace(s[i])
  }

  /** Drops leading white space: the result is a suffix of `s` that does not start with white space. */
  function TrimStart(s: string): (r: string)
    ensures |r| <= |s| && r == s[|s| - |r|..]
    ensures forall i :: 0 <= i < |s| - |r| ==> IsJsSpace(s[i])
    ensures |r| > 0 ==> !IsJsSpace(r[0])
  {
    if |s| > 0 && IsJsSpace(s[0]) then TrimStart(s[1..]) else s
  }

  /** Drops trailing white space: the result is a prefix of `s` that does not end with white space. */
  function TrimEnd(s: string): (r: string)
    ensures |r| <= |s| && r == s[..|r|]
    ensures forall i :: |r| <= i < |s| ==> IsJsSpace(s[i])
    ensures |r| > 0 ==> !IsJsSpace(r[|r| - 1])
  {
    if |s| > 0 && IsJsSpace(s[|s| - 1]) then TrimEnd(s[..|s| - 1]) else s
  }

  /** `s.trim()`: a contiguous piece of `s` with no white space at either end. */
  function Trim(s: string): (r: string)
    ensures |r| <= |s|
    ensures |r| > 0 ==> !IsJsSpace(r[0]) && !IsJsSpace(r[|r| - 1])
    // what was dropped before and after the piece is white space
    ensures exists i, j :: (0 <= i <= j <= |s| && r == s[i..j]
      && (forall k :: 0 <= k < i ==> IsJsSpace(s[k]))
      && (forall k :: j <= k < |s| ==> IsJsSpace(s[k])))
  {
    var a := TrimStart(s);
    var r := TrimEnd(a);
    PieceBetweenSpaces(s, a, r);
    r
  }

  /**
   * A prefix `r` of a suffix `a` of `s`, with only white space cut off on
   * either side, is a piece of `s` with only white space around it.
   */
  lemma PieceBetweenSpaces(s: string, a: string, r: string)
    requires |a| <= |s| && a == s[|s| - |a|..]
    requires forall k :: 0 <= k < |s| - |a| ==> IsJsSpace(s[k])
    requires |r| <= |a| && r == a[..|r|]
    requires forall k :: |r| <= k < |a| ==> IsJsSpace(a[k])
    ensures exists i, j :: (0 <= i <= j <= |s| && r == s[i..j]
      && (forall k :: 0 <= k < i ==> IsJsSpace(s[k]))
      && (forall k :: j <= k < |s| ==> IsJsSpace(s[k])))
  {
    var i := |s| - |a|;
    var j := i + |r|;
    forall k | 0 <= k < |r| ensures r[k] == s[i..j][k] {
      assert r[k] == a[k] == s[i + k];
    }
    assert r == s[i..j];
    forall k | j <= k < |s| ensures IsJsSpace(s[k]) {
      assert s[k] == a[k - i];
    }
    assert 0 <= i <= j <= |s| && r == s[i..j]
      && (forall k :: 0 <= k < i ==> IsJsSpace(s[k]))
      && (forall k :: j <= k < |s| ==> IsJsSpace(s[k]));
  }

  /** `s.trim() === ''` holds exactly when `s` is blank. */
  lemma TrimEmptyIffBlank(s: string)
    ensures Trim(s) == "" <==> IsBlank(s)
  {
    var a := TrimStart(s);
    if a == "" {
      assert IsBlank(s);
    } else {
      // the first kept character is not white space, so neither `s` nor the trimmed text is blank
      assert s[|s| - |a|] == a[0];
      assert !IsBlank(s);
      assert Trim(s)[..1] == a[..1];
    }
  }
}

=== FILE: js_value.dfy ===
/**
 * The JavaScript values the page logic inspects: the subset of a parsed JSON
 * document that matters for truthiness tests, strict-equality tests, string
 * conversion and property lookup.
 */
module JsValue {

  /**
   * A JSON value as the page sees it. `Other` stands for every value that is
   * neither a string, a boolean nor an object: numbers, `null`, `undefined`
   * and arrays. It carries its JavaScript truthiness and the text `String()`
   * gives for it, which is all the page ever uses of such a value.
   */
  datatype Json =
    | Str(s: string)
    | Bool(b: bool)
    | Obj(fields: map<string, Json>)
    | Other(truthy: bool, shown: string)

  /** The value of a missing property. */
  const Undefined: Json := Other(false, "undefined")

  /** The literal `null`. */
  const Null: Json := Other(false, "null")

  /** JavaScript truthiness: the empty string, `false`, `0`, `NaN`, `null` and `undefined` are falsy. */
  predicate Truthy(j: Json) {
    match j
    case Str(s) => s != ""
    case Bool(b) => b
    case Obj(_) => true
    case Other(t, _) => t
  }

  /** The text `String(j)` yields: what attribute writes and template interpolation produce. */
  function Render(j: Json): (r: string)
    ensures j.Str? ==> r == j.s
    ensures j.Obj? ==> r == "[object Object]"
  {
    match j
    case Str(s) => s
    case Bool(b) => if b then "true" else "false"
    case Obj(_) => "[object Object]"
    case Other(_, shown) => shown
  }
}

=== FILE: key_path.dfy ===
/**
 * Dot-path lookup into a nested translation dictionary: `resolveKey` of the
 * translation binder, which splits a key such as "nav.about" on '.' and folds
 * `acc && acc[part]` over the parts.
 */
module KeyPath {
  import opened JsValue

  /** The piece holds no dot. */
  predicate DotFree(piece: string) {
    '.' !in piece
  }

  /** `key.split('.')`: the pieces between dots, empty pieces included, never an empty list. */
  function SplitDots(key: string): (parts: seq<string>)
    ensures |parts| >= 1
    ensures forall i :: 0 <= i < |parts| ==> DotFree(parts[i])
  {
    if |key| == 0 then [""]
    else if key[0] == '.' then [""] + SplitDots(key[1..])
    else
      var rest := SplitDots(key[1..]);
      assert DotFree([key[0]] + rest[0]) by { assert DotFree(rest[0]); }
      [[key[0]] + rest[0]] + rest[1..]
  }

  /** `parts.join('.')`. */
  function JoinDots(parts: seq<string>): (key: string)
    requires |parts| >= 1
  {
    if |parts| == 1 then parts[0] else parts[0] + "." + JoinDots(parts[1..])
  }

  /** Splitting a joined key on '.' recovers the parts when no part holds a dot. */
  lemma {:induction false} SplitJoin(parts: seq<string>)
    requires |parts| >= 1
    requires forall i :: 0 <= i < |parts| ==> DotFree(parts[i])
    ensures SplitDots(JoinDots(parts)) == parts
  {
    if |parts| == 1 {
      SplitNoDot(parts[0]);
    } else {
      SplitJoin(parts[1..]);
      SplitAround(parts[0], JoinDots(parts[1..]));
      SplitNoDot(parts[0]);
    }
  }

  /** Joining the pieces of a key with '.' gives the key back. */
  lemma {:induction false} JoinSplit(key: string)
    ensures JoinDots(SplitDots(key)) == key
  {
    if |key| == 0 {
    } else if key[0] == '.' {
      JoinSplit(key[1..]);
      assert key == "." + key[1..];
    } else {
      var rest := SplitDots(key[1..]);
      JoinSplit(key[1..]);
      assert key == [key[0]] + key[1..];
      if |rest| > 1 {
        assert ([[key[0]] + rest[0]] + rest[1..])[1..] == rest[1..];
      }
    }
  }

  /** A key without a dot is a single piece. */
  lemma {:induction false} SplitNoDot(key: string)
    requires '.' !in key
    ensures SplitDots(key) == [key]
  {
    if |key| > 0 {
      assert '.' !in key[1..] by {
        forall i | 0 <= i < |key[1..]| ensures key[1..][i] != '.' {
          assert key[1..][i] == key[i + 1];
        }
      }
      SplitNoDot(key[1..]);
      assert key == [key[0]] + key[1..];
    }
  }

  /** A leading dot starts an empty piece. */
  lemma SplitDotCons(c: char, s: string)
    requires c == '.'
    ensures SplitDots([c] + s) == [""] + SplitDots(s)
  {
    assert ([c] + s)[1..] == s;
  }

  /** Any other leading character joins the first piece. */
  lemma SplitCharCons(c: char, s: string)
    requires c != '.'
    ensures SplitDots([c] + s) == [[c] + SplitDots(s)[0]] + SplitDots(s)[1..]
  {
    assert ([c] + s)[1..] == s;
  }

  /** Splitting `a.b` gives the pieces of `a` followed by the pieces of `b`. */
  lemma {:induction false} SplitAround(a: string, b: string)
    ensures SplitDots(a + "." + b) == SplitDots(a) + SplitDots(b)
  {
    if |a| == 0 {
      assert a + "." + b == ['.'] + b;
      SplitDotCons('.', b);
      assert SplitDots(a) == [""];
    } else {
      SplitAround(a[1..], b);
      if a[0] == '.' {
        SplitAroundDot(a, b);
      } else {
        SplitAroundChar(a, b);
      }
    }
  }

  /** The step of `SplitAround` when `a` starts with a dot: one more empty piece in front. */
  lemma SplitAroundDot(a: string, b: string)
    requires |a| > 0 && a[0] == '.'
    requires SplitDots(a[1..] + "." + b) == SplitDots(a[1..]) + SplitDots(b)
    ensures SplitDots(a + "." + b) == SplitDots(a) + SplitDots(b)
  {
    HeadAndTail(a, b);
    DotStep(a[0], a[1..], a[1..] + "." + b, SplitDots(b));
  }

  /** A leading dot adds the same empty piece in front of both splits. */
  lemma DotStep(c: char, x: string, t: string, more: seq<string>)
    requires c == '.'
    requires SplitDots(t) == SplitDots(x) + more
    ensures SplitDots([c] + t) == SplitDots([c] + x) + more
  {
    SplitDotCons(c, t);
    SplitDotCons(c, x);
    ConcatAssoc([""], SplitDots(x), more);
  }

  /** Concatenation is associative; stated apart so the step above stays cheap. */
  lemma ConcatAssoc<T>(x: seq<T>, y: seq<T>, z: seq<T>)
    ensures x + (y + z) == (x + y) + z
  {
  }

  /** The step of `SplitAround` when `a` starts with another character: it joins the first piece. */
  lemma SplitAroundChar(a: string, b: string)
    requires |a| > 0 && a[0] != '.'
    requires SplitDots(a[1..] + "." + b) == SplitDots(a[1..]) + SplitDots(b)
    ensures SplitDots(a + "." + b) == SplitDots(a) + SplitDots(b)
  {
    HeadAndTail(a, b);
    SplitCharCons(a[0], a[1..] + "." + b);
    SplitCharCons(a[0], a[1..]);
    JoinFirstPiece([a[0]], SplitDots(a[1..]), SplitDots(b));
  }

  /** `a` and `a.b` both split into the first character of `a` and the rest. */
  lemma HeadAndTail(a: string, b: string)
    requires |a| > 0
    ensures a == [a[0]] + a[1..]
    ensures a + "." + b == [a[0]] + (a[1..] + "." + b)
  {
  }

  /** Prefixing the first piece of `rest + more` is prefixing the first piece of `rest`, then appending `more`. */
  lemma JoinFirstPiece(prefix: string, rest: seq<string>, more: seq<string>)
    requires |rest| >= 1
    ensures [prefix + (rest + more)[0]] + (rest + more)[1..] == ([prefix + rest[0]] + rest[1..]) + more
  {
    assert (rest + more)[0] == rest[0];
    assert (rest + more)[1..] == rest[1..] + more;
  }

  /** One step of the fold: `acc && acc[part]`. A falsy accumulator is returned as it is. */
  function Member(acc: Json, part: string): (r: Json)
    ensures !Truthy(acc) ==> r == acc
    ensures acc.Obj? && part !in acc.fields ==> r == Undefined
    ensures acc.Obj? && part in acc.fields ==> r == acc.fields[part]
  {
    if !Truthy(acc) then acc
    else match acc
      case Obj(fields) => if part in fields then fields[part] else Undefined
      case _ => Undefined
  }

  /** The fold of `Member` over a list of parts, left to right. */
  function Resolve(root: Json, path: seq<string>): Json
    decreases |path|
  {
    if |path| == 0 then root else Resolve(Member(root, path[0]), path[1..])
  }

  /**
   * `resolveKey(obj, key)`: a falsy root comes back as it is, and a key
   * without a dot is a single member lookup.
   */
  function ResolveKey(root: Json, key: string): (r: Json)
    ensures !Truthy(root) ==> r == root
    ensures '.' !in key ==> r == Member(root, key)
    ensures root.Obj? && '.' !in key ==> r == (if key in root.fields then root.fields[key] else Undefined)
  {
    var parts := SplitDots(key);
    assert !Truthy(root) ==> Resolve(root, parts) == root by {
      if !Truthy(root) { FalsyAbsorbs(root, parts); }
    }
    assert '.' !in key ==> parts == [key] by {
      if '.' !in key { SplitNoDot(key); }
    }
    assert '.' !in key ==> Resolve(root, parts) == Member(root, key) by {
      if '.' !in key { assert parts[1..] == []; }
    }
    Resolve(root, parts)
  }

  /** Looking up a path in two stages is the same as looking it up at once. */
  lemma {:induction false} ResolveConcat(root: Json, a: seq<string>, b: seq<string>)
    ensures Resolve(root, a + b) == Resolve(Resolve(root, a), b)
    decreases |a|
  {
    if |a| > 0 {
      assert (a + b)[0] == a[0];
      assert (a + b)[1..] == a[1..] + b;
      ResolveConcat(Member(root, a[0]), a[1..], b);
    } else {
      assert a + b == b;
    }
  }

  /** Resolving the key `a.b` is resolving `b` inside what `a` resolves to. */
  lemma ResolveKeyConcat(root: Json, a: string, b: string)
    ensures ResolveKey(root, a + "." + b) == ResolveKey(ResolveKey(root, a), b)
  {
    SplitAround(a, b);
    ResolveConcat(root, SplitDots(a), SplitDots(b));
  }

  /** Once the accumulator is falsy, the rest of the path leaves it as it is. */
  lemma {:induction false} FalsyAbsorbs(acc: Json, path: seq<string>)
    requires !Truthy(acc)
    ensures Resolve(acc, path) == acc
    decreases |path|
  {
    if |path| > 0 {
      FalsyAbsorbs(Member(acc, path[0]), path[1..]);
    }
  }

  /**
   * A path whose segment `k` is missing from the object reached by the
   * segments before it resolves to `undefined`, so the binder has nothing
   * to write.
   */
  lemma MissingSegment(root: Json, path: seq<string>, k: nat)
    requires k < |path|
    requires Resolve(root, path[..k]).Obj?
    requires path[k] !in Resolve(root, path[..k]).fields
    ensures Resolve(root, path) == Undefined
    ensures !Truthy(Resolve(root, path))
  {
    assert path == path[..k] + ([path[k]] + path[k + 1..]);
    ResolveConcat(root, path[..k], [path[k]] + path[k + 1..]);
    FalsyAbsorbs(Undefined, path[k + 1..]);
  }
}

=== FILE: mobile_menu.dfy ===
/** The mobile navigation: the menu button's `aria-expanded` and `active` class, and the list's `active` class. */
module MobileMenu {
  import opened Wrappers

  /** `ariaExpanded` is `None` while the attribute is absent. */
  datatype Menu = Menu(ariaExpanded: Option<string>, buttonActive: bool, listActive: bool)

  predicate Expanded(m: Menu) {
    m.ariaExpanded == Some("true")
  }

  /** The button's attribute and both classes agree. */
  predicate Consistent(m: Menu) {
    m.buttonActive == m.listActive && (m.buttonActive <==> Expanded(m))
  }

  /** Closed: `aria-expanded="false"` and no `active` class anywhere. */
  predicate Collapsed(m: Menu) {
    m.ariaExpanded == Some("false") && !m.buttonActive && !m.listActive
  }

  /** `toggleMobileMenu`: the expanded state flips and both classes toggle. */
  function ToggleMenu(m: Menu): (r: Menu)
    ensures Expanded(r) <==> !Expanded(m)
    ensures r.ariaExpanded == Some("true") || r.ariaExpanded == Some("false")
    ensures r.buttonActive == !m.buttonActive && r.listActive == !m.listActive
  {
    var expanded := m.ariaExpanded == Some("true");
    Menu(Some(if expanded then "false" else "true"), !m.buttonActive, !m.listActive)
  }

  /** `closeMobileMenu`: collapsed, whatever the state before. */
  function CloseMenu(m: Menu): (r: Menu)
    ensures Collapsed(r) && Consistent(r)
  {
    Menu(Some("false"), false, false)
  }

  /** Toggling keeps a consistent menu consistent. */
  lemma ToggleKeepsConsistent(m: Menu)
    requires Consistent(m)
    ensures Consistent(ToggleMenu(m))
  {
  }

  /** Toggling twice restores a menu whose attribute is already `true` or `false`. */
  lemma ToggleTwiceRestores(m: Menu)
    requires m.ariaExpanded == Some("true") || m.ariaExpanded == Some("false")
    ensures ToggleMenu(ToggleMenu(m)) == m
  {
  }

  /** Closing is idempotent. */
  lemma CloseIdempotent(m: Menu)
    ensures CloseMenu(CloseMenu(m)) == CloseMenu(m)
  {
  }

  datatype MenuEvent = ButtonClick | LinkClick

  function Handle(m: Menu, ev: MenuEvent): Menu {
    match ev
    case ButtonClick => ToggleMenu(m)
    case LinkClick => CloseMenu(m)
  }

  function Replay(m: Menu, events: seq<MenuEvent>): Menu
    decreases |events|
  {
    if |events| == 0 then m else Replay(Handle(m, events[0]), events[1..])
  }

  /** From a consistent start, any sequence of clicks keeps the three indicators in agreement. */
  lemma {:induction false} ReplayStaysConsistent(m: Menu, events: seq<MenuEvent>)
    requires Consistent(m)
    ensures Consistent(Replay(m, events))
    decreases |events|
  {
    if |events| > 0 {
      if events[0] == ButtonClick {
        ToggleKeepsConsistent(m);
      }
      ReplayStaysConsistent(Handle(m, events[0]), events[1..]);
    }
  }
}

=== FILE: theme.dfy ===
/**
 * The colour theme: the root element's `data-theme` attribute and the stored
 * `theme` entry, set together by `setTheme`.
 */
module Theme {
  import opened Wrappers

  const Dark: string := "dark"
  const Light: string := "light"

  /** `attr` is the root's `data-theme`, `stored` is `localStorage.getItem('theme')`. */
  datatype ThemeState = ThemeState(attr: Option<string>, stored: Option<string>)

  /** Storage holds a theme that `localStorage.getItem('theme')` reports as truthy. */
  predicate HasSaved(s: ThemeState) {
    s.stored.Some? && s.stored.value != ""
  }

  /** The state every handler leaves behind: a truthy theme, shown and stored alike. */
  predicate Settled(s: ThemeState) {
    HasSaved(s) && s.attr == s.stored
  }

  /** `setTheme(theme)`: the root shows `theme` and storage remembers it. */
  function SetTheme(theme: string): (r: ThemeState)
    ensures r.attr == Some(theme) && r.attr == r.stored
    ensures theme != "" ==> Settled(r)
  {
    ThemeState(Some(theme), Some(theme))
  }

  /** `initTheme()`: the saved theme when there is one, otherwise dark. */
  function InitTheme(s: ThemeState): (r: ThemeState)
    ensures HasSaved(s) ==> r.attr == s.stored
    ensures !HasSaved(s) ==> r.attr == Some(Dark)
    ensures Settled(r)
  {
    if HasSaved(s) then SetTheme(s.stored.value) else SetTheme(Dark)
  }

  /** The toggle's click: dark becomes light and every other theme becomes dark. */
  function ToggleTheme(s: ThemeState): (r: ThemeState)
    ensures r.attr == Some(Light) <==> s.attr == Some(Dark)
    ensures r.attr == Some(Dark) <==> s.attr != Some(Dark)
    ensures Settled(r)
  {
    SetTheme(if s.attr == Some(Dark) then Light else Dark)
  }

  /** Two clicks from dark or light give the starting theme back. */
  lemma ToggleTwiceRestores(s: ThemeState)
    requires s.attr == Some(Dark) || s.attr == Some(Light)
    ensures ToggleTheme(ToggleTheme(s)).attr == s.attr
  {
  }

  /** The system colour-scheme listener: it follows the system only while nothing is stored. */
  function SchemeChange(s: ThemeState, prefersDark: bool): (r: ThemeState)
    ensures HasSaved(s) ==> r == s
    ensures !HasSaved(s) ==> r.attr == Some(if prefersDark then Dark else Light) && Settled(r)
  {
    if HasSaved(s) then s else SetTheme(if prefersDark then Dark else Light)
  }

  datatype ThemeEvent = ToggleClick | SystemChange(prefersDark: bool)

  /** The page's reaction to one event. */
  function Handle(s: ThemeState, ev: ThemeEvent): ThemeState {
    match ev
    case ToggleClick => ToggleTheme(s)
    case SystemChange(d) => SchemeChange(s, d)
  }

  /** The page's reaction to a sequence of events, in order. */
  function Replay(s: ThemeState, events: seq<ThemeEvent>): ThemeState
    decreases |events|
  {
    if |events| == 0 then s else Replay(Handle(s, events[0]), events[1..])
  }

  /** Every handler keeps the state settled. */
  lemma {:induction false} ReplayStaysSettled(s: ThemeState, events: seq<ThemeEvent>)
    requires Settled(s)
    ensures Settled(Replay(s, events))
    decreases |events|
  {
    if |events| > 0 {
      ReplayStaysSettled(Handle(s, events[0]), events[1..]);
    }
  }

  /**
   * Because `initTheme` always stores a theme, the system colour-scheme
   * listener never changes anything, whatever happens after start-up.
   */
  lemma SystemSchemeNeverApplies(start: ThemeState, events: seq<ThemeEvent>, prefersDark: bool)
    ensures
      var s := Replay(InitTheme(start), events);
      SchemeChange(s, prefersDark) == s
  {
    ReplayStaysSettled(InitTheme(start), events);
  }
}

=== FILE: wrappers.dfy ===
/** Optional values: an absent DOM anchor, an absent storage entry, a failed fetch. */
module Wrappers {

  datatype Option<+T> = None | Some(value: T) {

    /** Returns the value held in Some, or the given default when None. */
    function GetOr(default: T): (r: T)
      ensures Some? ==> r == value
      ensures None? ==> r == default
    {
      match this
      case Some(v) => v
      case None => default
    }
  }
}
